=== FILE: README.md ===
# FF1 and FF3-1 format-preserving encryption, modelled in Dafny

This project models the core of the Ubiq FPE Java library. That core has two
parts. The first is the two format-preserving Feistel ciphers of NIST SP
800-38G Rev. 1, section 5: FF1 (Algorithms 7 and 8) and FF3-1 (Algorithms 9
and 10). The second is the FFX layer they share: validating the context, the
CBC-MAC `prf` and the block cipher `ciph`, `rev`, `xor`, and the numeral
codec `str`. The model then proves properties about it.

The library ships the same algorithms twice. `ubiqsecurity/fpe` is the
current package and `ubiqfpe` the older one. The model describes each
algorithm once. Every row below cites the current package, or the older one
where only the older one has that operation. The older counterparts are:

| current (cited below) | older |
|---|---|
| lib/src/main/java/ubiqsecurity/fpe/FFX.java:21-87 (constructor) | lib/src/main/java/ubiqfpe/FFX.java:21-63 |
| lib/src/main/java/ubiqsecurity/fpe/FFX.java:161-173 (`rev`) | lib/src/main/java/ubiqfpe/FFX.java:88-101 |
| lib/src/main/java/ubiqsecurity/fpe/FFX.java:193-210 (`str`) | lib/src/main/java/ubiqfpe/FFX.java:113-130 |
| lib/src/main/java/ubiqsecurity/fpe/FF1.java:26-151 | lib/src/main/java/ubiqfpe/FF1.java:11-136 |
| lib/src/main/java/ubiqsecurity/fpe/FF3_1.java:20-136 | lib/src/main/java/ubiqfpe/FF3_1.java:9-97 |

The two packages differ in four ways:
- **`prf`.** The older `FFX.prf(src)` and `FFX.ciph(src)` work on whole
  arrays; they are `BlockFn.PrfAll` and `BlockFn.CiphExact`. The current
  ones take offsets; they are `BlockFn.Prf`, `BlockFn.Ciph` and
  `BlockFn.CiphBlock`.
- **`xor`.** The older `xor(s1, s2)` is `Bytes.Xor`. The current
  offset-based one is `Bytes.XorInto`.
- **The null tweak.** The older constructor has no explicit null-tweak test.
  Its tweak test checks `twkmin > twkmax` before it reads the tweak's
  length. So a null tweak is reported as a bad tweak length when
  twkmin > twkmax. Otherwise it fails with a null-pointer exception at the
  length read, which `NullTweak` stands for. `Ffx.New` follows the current
  order and `Ffx.NewOlder` the older one. `Ffx.NullTweakOrder` gives an
  input on which the two differ. The older FF3_1 fixes both bounds at 7, so
  only the older FF1 can reach the difference.
- **Wiring that does not compile.** Some wiring in both packages does not
  type-check as written:
  - the current FF1 calls a four-argument `prf(R, 0, PQ, 0)`
    (`lib/src/main/java/ubiqsecurity/fpe/FF1.java:112`), but its `FFX`
    declares only the five-argument `prf` with a length. Its
    `ciph(R, l, R, l)` (line 125) does match the declared four-argument
    `ciph`. It also instantiates the abstract `FFX` (line 29);
  - the older FF1 and FF3_1 both pass a `long` txtmax to the `int`
    parameter of the older `FFX` constructor
    (`lib/src/main/java/ubiqfpe/FF1.java:14`,
    `lib/src/main/java/ubiqfpe/FF3_1.java:10-13`). The older FF1 also
    passes its `long` twkmin and twkmax (`lib/src/main/java/ubiqfpe/FF1.java:11-14`)
    to the `int` twkmin and twkmax parameters
    (`lib/src/main/java/ubiqfpe/FFX.java:21-24`). Both read the private
    fields `radix`, `twk`, `txtmin`, `txtmax`, `twkmin` and `twkmax` of
    `FFX`;
  - the older FF1 calls `prf(R, 0, PQ, 0)`, `ciph(R, l, R, l)` and the
    seven-argument `xor(R, l, R, 0, R, l, 16)`
    (`lib/src/main/java/ubiqfpe/FF1.java:97-110`). The older `FFX` declares
    only `prf(src)`, `ciph(src)` and `xor(s1, s2)`.

  The model reads `prf(R, 0, PQ, 0)` as the CBC-MAC of the whole P || Q
  buffer, which is what the older `prf(src)` computes. It reads
  `ciph(R, l, R, l)` as AES of the block at `l`, written back in place.
  It reads the older seven-argument `xor` as the current one
  (`Bytes.XorInto`).

**AES is a parameter.** Every cipher operation takes
`aes: (key, Block) -> Block`. Any function of that type can stand for AES,
so each theorem holds for every block function. No property of AES is
assumed.

**Modules.** They follow the library's structure:
- `Wrappers`: `Option` (a nullable reference) and `Result`. Each `Error`
  value is one exception the library throws.
- `Arith`: powers and integer logarithms. These stand in for the library's
  floating-point `Math.log`, `Math.log10` and `Math.ceil`.
- `Bytes`: bytes as a `byte` newtype 0..255, XOR, reversal, big-endian
  values, and `BigInteger.toByteArray` with the two ways the ciphers pack it.
- `Numeral`: NUM and STR over the lower-case digits `0-9a-z`, and the
  modular round update.
- `BlockFn`: CBC-MAC `prf` and `ciph`.
- `Ffx`: the shared context and the per-call checks. A constructed context
  satisfies `Ffx.Valid`. The cipher operations require only `Ffx.Usable`,
  the part of it they rely on: a radix of 2..36 and 2 <= txtmin <= txtmax.
- `Feistel`: any Feistel network is undone by running its rounds in the other
  direction.
- `Halves`: the split and join, the half lengths u and v, and the generic
  numeral round. A round is defined by an update that can be undone and a
  y function that partner rounds share. Both ciphers take their round
  number from `Halves.RoundNumber`: i when encrypting, N - 1 - i when
  decrypting.
- `Ff1` and `Ff31`: the two ciphers.

**Where the code departs from the standard.** The model follows the code:
- **Packing NUM(B).** Both ciphers store NUM(B) into a field of w bytes
  (w = b for FF1, w = 12 for FF3-1), using the minimal two's-complement
  array. When that array is at least w bytes long, the code copies its
  *leading* w bytes.
  - Below 2^(8w-1) the result is the standard's big-endian [x]^w
    (`Bytes.PackIsBigEndian`).
  - From 2^(8w-1) up to 256^w the array carries a leading sign byte, and the
    field receives x / 256 instead of x (`Bytes.PackDropsLowByte`;
    `Bytes.PackExample`: 32768 in two bytes is stored as 00 80).
  - This range is reachable. For FF1 with radix 2 and v = 16, b = 2 and
    NUM(B) can reach 65535. For FF3-1 with a 29-digit decimal half,
    NUM(REV(B)) can exceed 2^95.
  - The cipher stays invertible, because the round function is still a
    function of B (`Ff1.YsMirrored`, `Ff31.YsMirrored`). But for such inputs
    its outputs are not those of the standard.
- **FF3-1 txtmax.** The code uses floor(192 / log2(radix)) where the
  standard uses 2 * floor(log_radix(2^96)). The code's bound is never
  smaller (`Ff31.TxtMaxAtLeastStandard`) and can be larger: 57 against 56
  for radix 10 (`Ff31.TxtMaxDecimal`).

## Model

| member | source | states |
|---|---|---|
| Ffx.TxtMin | lib/src/main/java/ubiqsecurity/fpe/FFX.java:46-54 | txtmin is the least n with radix^n >= 1,000,000 |
| Ffx.TxtMinRange | lib/src/main/java/ubiqsecurity/fpe/FFX.java:54-57 | for radix 2..36, txtmin lies in 4..20, so the `txtmin < 2` test never fires |
| Ffx.TxtMinExamples | lib/src/main/java/ubiqsecurity/fpe/FFX.java:46-54 | txtmin is 6 for radix 10, 20 for radix 2 and 4 for radix 36 |
| Ffx.New | lib/src/main/java/ubiqsecurity/fpe/FFX.java:21-87 | checks in source order: key size 16/24/32, radix 2..36, 2 <= txtmin <= txtmax, tweak not null, then twkmin <= twkmax and the tweak length within [twkmin, twkmax] (0 = no upper bound); success iff all pass, and the context keeps key, radix, bounds and the tweak unchanged |
| Ffx.NewOlder | lib/src/main/java/ubiqfpe/FFX.java:21-63 | the older constructor tests twkmin <= twkmax before it reads the tweak, so a missing tweak with twkmin > twkmax fails as a bad tweak length; in every other case it gives exactly what the current constructor gives, and it succeeds exactly when that one does |
| Ffx.NullTweakOrder | lib/src/main/java/ubiqfpe/FFX.java:45-48 | with any valid key, no tweak, radix 10, txtmax 2^32 and twkmin 1 > twkmax 0, the current constructor reports the missing tweak and the older one the tweak length |
| Ffx.CheckCall | lib/src/main/java/ubiqsecurity/fpe/FF1.java:51-56 | the per-call check passes iff txtmin <= n <= txtmax and the tweak length is within bounds; a text-length failure is reported before a tweak failure |
| BlockFn.CbcMacAppend | lib/src/main/java/ubiqsecurity/fpe/FFX.java:113-115 | one more `processBlock` extends the CBC chain: the MAC of i + 16 bytes is E(MAC of i bytes xor the next block) |
| BlockFn.BlockCountLoop | lib/src/main/java/ubiqsecurity/fpe/FFX.java:113 | the loop test `i < len && i < src.length - soff` holds exactly below 16 times the number of blocks processed, which never exceeds the source |
| BlockFn.Prf | lib/src/main/java/ubiqsecurity/fpe/FFX.java:99-117 | fails iff the source length past soff is not a multiple of 16; otherwise the result is the zero-IV CBC-MAC of the processed blocks (at most len bytes' worth), or the incoming dst when none is processed (as for an soff past the end, whose negative length Java's truncating `%` also accepts when it is a multiple of 16) |
| BlockFn.Chain | lib/src/main/java/ubiqsecurity/fpe/FFX.java:113-116 | the loop leaves in dst the zero-IV CBC-MAC of the first BlockCount blocks, starting from a fresh chain |
| BlockFn.PrfAll | lib/src/main/java/ubiqfpe/FFX.java:65-78 | fails iff the source is not whole blocks; otherwise returns the zero-IV CBC-MAC of all of it |
| BlockFn.CbcMacOneBlock | lib/src/main/java/ubiqsecurity/fpe/FFX.java:119-127 | with a zero IV, the CBC-MAC of one block is AES of that block |
| BlockFn.Ciph | lib/src/main/java/ubiqsecurity/fpe/FFX.java:124-127 | `ciph` fails iff `prf` would; otherwise it is AES of the 16 bytes at soff (dst itself when soff is at or past the end) |
| BlockFn.CiphBlock | lib/src/main/java/ubiqsecurity/fpe/FFX.java:133-137 | the convenience `ciph(src)` returns AES of the block |
| BlockFn.CiphExact | lib/src/main/java/ubiqfpe/FFX.java:80-86 | the older `ciph` fails iff the input is not exactly 16 bytes, and otherwise is AES of it |
| Bytes.RevInto | lib/src/main/java/ubiqsecurity/fpe/FFX.java:143-155 | the swap loop leaves dst[i] = src[n-1-i] for i < n and the rest of dst untouched |
| Bytes.RevIndex | lib/src/main/java/ubiqsecurity/fpe/FFX.java:161-173 | `rev` of bytes or characters puts element n-1-i at position i and keeps the length |
| Bytes.RevInvolution | lib/src/main/java/ubiqsecurity/fpe/FFX.java:143-173 | reversing twice gives the input back |
| Bytes.RevExamples | lib/src/test/java/ubiqfpe/FFXTest.java:32-42 | rev(1 2 3 4) = 4 3 2 1, rev(1 2 3 4 5) = 5 4 3 2 1, rev("abcd") = "dcba", rev("abcde") = "edcba" |
| Bytes.XorByteCancel | lib/src/main/java/ubiqsecurity/fpe/FFX.java:184 | XOR of a byte with the same mask twice gives the byte back |
| Bytes.Xor | lib/src/main/java/ubiqfpe/FFX.java:103-111 | the result has the length of the shorter input, and byte i is the XOR of the two inputs' bytes i |
| Bytes.XorCancel | lib/src/main/java/ubiqfpe/FFX.java:103-111 | XOR with the same mask twice is the identity |
| Bytes.XorInto | lib/src/main/java/ubiqsecurity/fpe/FFX.java:179-186 | the offset form writes the XOR of the two source ranges at doff and leaves every other byte of d unchanged |
| Bytes.BeBytesValue | lib/src/main/java/ubiqsecurity/fpe/FF1.java:74-86 | storing x in w bytes with shift-and-cast keeps exactly x mod 256^w |
| Bytes.BeBytesOfValue | lib/src/main/java/ubiqsecurity/fpe/FF1.java:74-86 | decoding w big-endian bytes and encoding the value at width w gives the bytes back |
| Bytes.UnsignedOfSigned | lib/src/main/java/ubiqsecurity/fpe/FF1.java:128-129 | `new BigInteger(bytes)` reduced mod 2^(8·len) is the unsigned big-endian value |
| Bytes.ToByteArrayValue | lib/src/main/java/ubiqsecurity/fpe/FF1.java:99-100 | `toByteArray` of c read back as a two's-complement number is c |
| Bytes.PackIsBigEndian | lib/src/main/java/ubiqsecurity/fpe/FF1.java:99-110 | below 2^(8w-1), the packed field is the w-byte big-endian encoding of c |
| Bytes.PackDropsLowByte | lib/src/main/java/ubiqsecurity/fpe/FF1.java:101-102 | from 2^(8w-1) to 256^w, the leading-bytes copy stores c / 256 |
| Bytes.PackExample | lib/src/main/java/ubiqsecurity/fpe/FF3_1.java:99-100 | 32768 packed into two bytes is 00 80, while its big-endian form is 80 00 |
| Numeral.Num | lib/src/main/java/ubiqsecurity/fpe/FF1.java:99 | a numeral of k digits has a value below radix^k |
| Numeral.NumInjective | lib/src/main/java/ubiqsecurity/fpe/FF1.java:131-141 | two numerals of equal length and equal value are the same string |
| Numeral.NumLeadingZeros | lib/src/main/java/ubiqsecurity/fpe/FFX.java:198-207 | left padding with '0' keeps a numeral and its value |
| Numeral.ToRadixSpec | lib/src/main/java/ubiqsecurity/fpe/FFX.java:194 | `toString(r)` yields digits that parse back to c, with no leading zero |
| Numeral.ToRadixFits | lib/src/main/java/ubiqsecurity/fpe/FFX.java:194-196 | c's digits fit in m characters iff m >= 1 and c < r^m |
| Numeral.Str | lib/src/main/java/ubiqsecurity/fpe/FFX.java:193-210 | `str(m, r, c)` fails iff c does not fit in m digits; otherwise it returns m characters of the radix whose value is c |
| Numeral.StrOfNum | lib/src/main/java/ubiqsecurity/fpe/FFX.java:193-210 | STR at a numeral's own length, applied to its value, gives the numeral back |
| Numeral.StrExamples | lib/src/test/java/ubiqfpe/FFXTest.java:16-24 | str(5, 10, 12345) = "12345", str(6, 10, 12345) = "012345", and str(4, 10, 12345) fails |
| Numeral.UpdateValue | lib/src/main/java/ubiqsecurity/fpe/FF1.java:131-138 | the round value c = (a ± y) mod radix^m lies in 0..radix^m - 1 |
| Numeral.UpdateInverse | lib/src/main/java/ubiqsecurity/fpe/FF1.java:131-138 | subtracting y after adding it (or the reverse), mod radix^m, gives back any a below radix^m |
| Numeral.Update | lib/src/main/java/ubiqsecurity/fpe/FF1.java:138-141 | the new half STR_m(c) has m digits of the radix, and its value is (NUM(A) ± y) mod radix^m |
| Numeral.UpdateUndone | lib/src/main/java/ubiqsecurity/fpe/FF1.java:131-141 | the update of the other direction, with the same y, gives back an m-digit A |
| Feistel.IterateKeeps | lib/src/main/java/ubiqsecurity/fpe/FF1.java:91-142 | an invariant that every round keeps holds after any number of rounds |
| Feistel.IterateInverse | lib/src/main/java/ubiqsecurity/fpe/FF1.java:91-142 | j rounds of the other direction undo the last j rounds, on the swapped state |
| Feistel.RoundTrip | lib/src/main/java/ubiqsecurity/fpe/FF1.java:91-150 | all rounds in one direction, then all rounds of the other on the swapped result, give the input back |
| Halves.MAlternates | lib/src/main/java/ubiqsecurity/fpe/FF1.java:92 | m alternates between u and v, and the other direction is one round out of step |
| Halves.Split | lib/src/main/java/ubiqsecurity/fpe/FF1.java:63-69 | encryption starts from (X[..u], X[u..]) and decryption from (X[u..], X[..u]); joining that state gives X back |
| Halves.JoinShape | lib/src/main/java/ubiqsecurity/fpe/FF1.java:144-150 | after the rounds, A‖B (encrypt) or B‖A (decrypt) is a numeral of n characters |
| Halves.SplitJoin | lib/src/main/java/ubiqsecurity/fpe/FF1.java:144-150 | after an even number of rounds, splitting the output for the other direction gives the swapped final state |
| Halves.RoundKeepsShape | lib/src/main/java/ubiqsecurity/fpe/FF1.java:140-141 | after a round, A is the old B and the new B has m digits, so both halves have the lengths the next round expects |
| Halves.RoundInverse | lib/src/main/java/ubiqsecurity/fpe/FF1.java:91-141 | round N-1-i of the other direction, applied to the swapped output of round i, gives back the swapped input |
| Halves.Run | lib/src/main/java/ubiqsecurity/fpe/FF1.java:63-150 | split, rounds and join turn a numeral of n characters into a numeral of n characters |
| Halves.RunInverse | lib/src/main/java/ubiqsecurity/fpe/FF1.java:63-150 | for an even number of rounds, running the network in one direction and then the other gives the text back |
| Ff1.New | lib/src/main/java/ubiqsecurity/fpe/FF1.java:26-30 | FF1 construction succeeds iff the key size, radix, tweak presence and tweak bounds are valid, and a failure names the first failing check in that order (KeySize, Radix, NullTweak, TweakLength); txtmax is 2^32 and the minimum-length check cannot fail |
| Ff1.NumBytes | lib/src/main/java/ubiqsecurity/fpe/FF1.java:36-37 | b is the least byte count with radix^v <= 256^b |
| Ff1.D | lib/src/main/java/ubiqsecurity/fpe/FF1.java:38 | d is a multiple of 4 with b + 4 <= d < b + 8 |
| Ff1.RLen | lib/src/main/java/ubiqsecurity/fpe/FF1.java:41 | r is d rounded up to whole blocks |
| Ff1.QLen | lib/src/main/java/ubiqsecurity/fpe/FF1.java:58 | q is a multiple of 16 with t + b + 1 <= q < t + b + 17 |
| Ff1.HeaderLayout | lib/src/main/java/ubiqsecurity/fpe/FF1.java:71-86 | P holds 1, 2, 1, the radix, 10, u, n and t at their fixed offsets |
| Ff1.HeaderFields | lib/src/main/java/ubiqsecurity/fpe/FF1.java:71-86 | the header fields hold radix mod 2^24, u mod 256, n mod 2^32 and t mod 2^32, big-endian |
| Ff1.InputLayout | lib/src/main/java/ubiqsecurity/fpe/FF1.java:88-110 | P‖Q is P, the tweak, zero bytes, the round byte, then the numeral bytes |
| Ff1.RoundInputLayout | lib/src/main/java/ubiqsecurity/fpe/FF1.java:88-110 | in one round's P‖Q, the round byte is at \|PQ\| - b - 1 and the packed NUM(B) fills the last b bytes; header, tweak and zero padding are as set up |
| Ff1.CounterValue | lib/src/main/java/ubiqsecurity/fpe/FF1.java:117-121 | the counter block [j]^16 has value j mod 2^32 |
| Ff1.Masked | lib/src/main/java/ubiqsecurity/fpe/FF1.java:117-123 | after the fill, the counter bytes and the in-place `xor`, block j is R xor [j]^16 and the blocks before it are unchanged |
| Ff1.ExpandStep | lib/src/main/java/ubiqsecurity/fpe/FF1.java:115-125 | one pass of the counter loop sets block j to AES(R xor [j]^16) and leaves the blocks before it unchanged |
| Ff1.ExpandBlocks | lib/src/main/java/ubiqsecurity/fpe/FF1.java:114-126 | block j of S (j >= 1) is AES(R xor [j]^16) |
| Ff1.ExpandInPlace | lib/src/main/java/ubiqsecurity/fpe/FF1.java:114-126 | the in-place counter loop computes S = R‖CIPH(R xor [1])‖… over r/16 blocks |
| Ff1.YValue | lib/src/main/java/ubiqsecurity/fpe/FF1.java:128-129 | y is the unsigned big-endian value of the first d bytes of S |
| Ff1.RoundY | lib/src/main/java/ubiqsecurity/fpe/FF1.java:97-129 | y is below 256^d |
| Ff1.HalfUndoable | lib/src/main/java/ubiqsecurity/fpe/FF1.java:131-141 | FF1's update keeps an m-digit numeral m digits long, and the update of the other direction with the same y undoes it |
| Ff1.YsMirrored | lib/src/main/java/ubiqsecurity/fpe/FF1.java:97 | round i and round 9 - i of the other direction use the same round byte, hence the same y |
| Ff1.RoundValue | lib/src/main/java/ubiqsecurity/fpe/FF1.java:91-141 | round i: A becomes B, and B becomes the m-digit numeral of (NUM(A) ± y) mod radix^m, with y the round function on round byte i (encrypt) or 9 - i (decrypt) and B |
| Ff1.Cipher | lib/src/main/java/ubiqsecurity/fpe/FF1.java:32-151 | with the default tweak when none is given, fails with the length checks' error (text length first, then tweak length), and, once those pass, with NumberFormat exactly when X is not a numeral of the radix; otherwise returns a numeral of the same length |
| Ff1.Encrypt | lib/src/main/java/ubiqsecurity/fpe/FF1.java:164-166 | succeeds iff the checks pass and X is a numeral; the output has X's length and alphabet |
| Ff1.Decrypt | lib/src/main/java/ubiqsecurity/fpe/FF1.java:193-195 | as Encrypt, for decryption |
| Ff1.CipherInverse | lib/src/main/java/ubiqsecurity/fpe/FF1.java:32-151 | on a numeral that passes the length checks, `cipher` in one direction succeeds, and `cipher` in the other direction, with the same key and tweak, gives the text back |
| Ff1.DecryptEncrypt | lib/src/test/java/ubiqsecurity/fpe/FF1Test.java:16-24 | encryption succeeds on every numeral that passes the checks, and decrypt(encrypt(X, T), T) = X |
| Ff1.EncryptDecrypt | lib/src/main/java/ubiqsecurity/fpe/FF1.java:164-195 | decryption succeeds on every numeral that passes the checks, and encrypt(decrypt(X, T), T) = X |
| Ff31.TxtMax | lib/src/main/java/ubiqsecurity/fpe/FF3_1.java:35 | txtmax is the largest n with radix^n <= 2^192 |
| Ff31.StandardMaxLen | lib/src/main/java/ubiqsecurity/fpe/FF3_1.java:22-23 | the standard's bound 2·floor(log_radix 2^96), as an even n with radix^(n/2) <= 2^96 < radix^(n/2+1) |
| Ff31.TxtMaxAtLeastStandard | lib/src/main/java/ubiqsecurity/fpe/FF3_1.java:22-35 | the code's txtmax is never below the standard's bound |
| Ff31.TxtMaxDecimal | lib/src/main/java/ubiqsecurity/fpe/FF3_1.java:35 | for radix 10, txtmax is 57 while the standard's bound is 56 |
| Ff31.TxtMinFits | lib/src/main/java/ubiqsecurity/fpe/FF3_1.java:34-37 | for radix 2..36, 2 <= txtmin <= 20 <= txtmax, so FF3-1 construction never fails on the minimum length |
| Ff31.New | lib/src/main/java/ubiqsecurity/fpe/FF3_1.java:20-38 | construction succeeds iff the key size and radix are valid and the tweak has exactly 7 bytes; a failure names the first failing check (KeySize, Radix, NullTweak, then TweakLength for a tweak that is not 7 bytes); the context holds the byte-reversed key and txtmax from the radix |
| Ff31.HighNibble | lib/src/main/java/ubiqsecurity/fpe/FF3_1.java:74 | T[3] & 0xF0 keeps the high nibble: a multiple of 16 within 16 of T[3] |
| Ff31.LowNibbleUp | lib/src/main/java/ubiqsecurity/fpe/FF3_1.java:77 | (T[3] & 0x0F) << 4 moves the low nibble into the high one |
| Ff31.TweakHalves | lib/src/main/java/ubiqsecurity/fpe/FF3_1.java:72-77 | Tw[0] and Tw[1] are 4 bytes each, with the low nibble of their last byte zero |
| Ff31.TweakHalvesKeepAll | lib/src/main/java/ubiqsecurity/fpe/FF3_1.java:72-77 | the 7-byte tweak can be rebuilt from Tw[0] and Tw[1] |
| Ff31.XorRoundNumber | lib/src/main/java/ubiqsecurity/fpe/FF3_1.java:90 | `P[3] ^= i` is W xor [i]^4 for i below 256 |
| Ff31.RoundBlockStandard | lib/src/main/java/ubiqsecurity/fpe/FF3_1.java:88-106 | when NUM(REV(B)) < 2^95, the round block is the standard's P = W xor [i]^4 ‖ [NUM(REV(B))]^12 |
| Ff31.RevNumeral | lib/src/main/java/ubiqsecurity/fpe/FF3_1.java:97 | REV of a numeral is a numeral of the same length |
| Ff31.RoundY | lib/src/main/java/ubiqsecurity/fpe/FF3_1.java:97-117 | y is the unsigned big-endian value of REVB(AES(REVB(P))), with P built from the tweak half, the round number and NUM(REV(B)) |
| Ff31.NewHalf | lib/src/main/java/ubiqsecurity/fpe/FF3_1.java:119-131 | the new half REV(STR_m(c)) has m digits of the radix |
| Ff31.NewHalfValue | lib/src/main/java/ubiqsecurity/fpe/FF3_1.java:119-131 | NUM(REV(C)) = (NUM(REV(A)) ± y) mod radix^m |
| Ff31.NewHalfInverse | lib/src/main/java/ubiqsecurity/fpe/FF3_1.java:119-131 | the new half of the other direction, with the same y, gives back an m-digit A |
| Ff31.HalfUndoable | lib/src/main/java/ubiqsecurity/fpe/FF3_1.java:119-131 | FF3-1's update keeps an m-digit numeral m digits long, and the other direction with the same y undoes it |
| Ff31.YsMirrored | lib/src/main/java/ubiqsecurity/fpe/FF3_1.java:88-90 | round i and round 7 - i of the other direction use the same tweak half and round number, hence the same y |
| Ff31.RoundValue | lib/src/main/java/ubiqsecurity/fpe/FF3_1.java:81-131 | round i: A becomes B, and NUM(REV(new B)) = (NUM(REV(A)) ± y) mod radix^m, with y from tweak half (i+1) mod 2 or i mod 2 and round number i or 7 - i |
| Ff31.Cipher | lib/src/main/java/ubiqsecurity/fpe/FF3_1.java:40-136 | with the default tweak when none is given, succeeds iff txtmin <= n <= txtmax, the tweak has 7 bytes and X is a numeral; fails with the length checks' error first, and otherwise with NumberFormat on a non-numeral X; the output keeps length and alphabet |
| Ff31.Encrypt | lib/src/main/java/ubiqsecurity/fpe/FFX.java:223-225 | succeeds iff the checks pass and X is a numeral; the output has X's length and alphabet |
| Ff31.Decrypt | lib/src/main/java/ubiqsecurity/fpe/FFX.java:252-254 | as Encrypt, for decryption |
| Ff31.CipherInverse | lib/src/main/java/ubiqsecurity/fpe/FF3_1.java:40-136 | on a numeral that passes the length checks, `cipher` in one direction succeeds, and `cipher` in the other direction, with the same key and tweak, gives the text back |
| Ff31.DecryptEncrypt | lib/src/test/java/ubiqfpe/FF3_1Test.java:16-24 | encryption succeeds on every numeral that passes the checks, and decrypt(encrypt(X, T), T) = X |
| Ff31.EncryptDecrypt | lib/src/main/java/ubiqsecurity/fpe/FFX.java:223-254 | decryption succeeds on every numeral that passes the checks, and encrypt(decrypt(X, T), T) = X |

## Left out

- **The AES engine.** Bouncy Castle's AES engine and its CBC wrapper are
  left out. AES is the parameter `aes`, and the cipher mode is modelled as
  CBC-MAC with a zero IV. For this reason no published test vector is
  reproduced.
- **Floating point.** `Math.ceil(6 / log10(radix))` (txtmin), the FF1 byte
  count b, and FF3-1's `(long)(192 / log2(radix))` are replaced by their
  exact integer meanings: `CeilLog` and `FloorLog` over `Pow`. Rounding
  errors of the floating-point versions are not modelled.
- **Mutable state.** The cipher object's mutable state, `reset()` and thread
  safety are left out. `prf` is a pure function that starts every call from
  a fresh chain, which is what `reset()` guarantees.
- **Destination offsets.** `prf` and `ciph` return their 16-byte result
  instead of writing it at `doff`.
- **Array aliasing.** `rev` and `xor` are modelled on values, so a
  destination that shares an array with a source is not modelled as such.
  Value semantics agree with the Java in the cases the library reaches:
  - `rev` reads both `src[i]` and `src[n - 1 - i]` before it writes either
    position. The in-place call `dst == src` therefore reverses correctly.
    Its comment rules out any other overlap, and its one caller passes a
    fresh array.
  - `xor` reads `s1[s1off + i]` and `s2[s2off + i]` just before it writes
    `d[doff + i]`. So it goes wrong exactly when a source range overlaps a
    later part of the destination, e.g. `d == s1` with
    s1off < doff < s1off + len.
  - `xor`'s only call is `xor(R, l, R, 0, R, l, 16)` at
    `lib/src/main/java/ubiqsecurity/fpe/FF1.java:123`, with l = 16j >= 16.
    There s1 is `R[0..16)`, which is disjoint from the destination
    `R[l..l+16)`, and s2 is the destination itself at the same offset.
    No source byte is overwritten before it is read.
- **Exceptions.** Java exception classes become `Error` values, one per
  throw site.
- Bytes.RevInto and Bytes.XorInto: the requires ask for a destination
  long enough and offsets inside the arrays. Outside those bounds the Java
  throws an index exception, which is not modelled. Every call in the
  library stays inside them.
- BlockFn.Prf and BlockFn.Ciph: offsets are `nat`. A negative `soff` is not
  modelled. When len > 0 and the length test passes, it makes the block
  cipher's `processBlock` throw an index exception.
- Ff1.Cipher: the 32-bit `int` arithmetic for b is not modelled. The code
  computes b as `((int)Math.ceil(log2(radix) * v) + 7) / 8`
  (`lib/src/main/java/ubiqsecurity/fpe/FF1.java:36-37`, and
  `lib/src/main/java/ubiqfpe/FF1.java:21-22`).
  - Once log2(radix) * v exceeds 2^31 - 8, the cast saturates at 2^31 - 1
    and the `+ 7` wraps, so b and then q are negative.
  - `new byte[p + q]` (line 60 of the current FF1) then throws
    `NegativeArraySizeException`.
  - At radix 36 this happens from n of about 8.3 * 10^8, which is inside
    txtmax = 2^32.
  - The model computes the exact byte count with unbounded integers and
    returns a result there.
- Ff1.Cipher and Ff31.Cipher: `BigInteger` parsing also accepts upper-case
  letters, a leading sign and non-ASCII digits. The model accepts only the
  lower-case digits `0-9a-z` of the radix and reports anything else as
  `NumberFormat`.
- Numeral.Str: takes a non-negative c. The ciphers only call `str` on a
  value reduced mod radix^m, and the sign that `toString` writes for a
  negative value is not modelled.
- Ff1.RoundY: its contract only bounds y by 256^d. The value of y is stated
  piece by piece instead:
  - `Ff1.RoundInputLayout` gives P‖Q;
  - `BlockFn.Prf` gives R;
  - `Ff1.ExpandInPlace` and `Ff1.ExpandBlocks` give S;
  - `Ff1.YValue` gives the first d bytes of S.
- Ff1.Cipher and Ff31.Cipher: the contracts state the error cases, length
  and alphabet. What the output is follows from the round lemmas
  (`Ff1.RoundValue`, `Ff31.RoundValue`) through `Halves.Run` and from
  `CipherInverse`, not from one ensures clause.
- **Wiring that does not compile.** The non-compiling calls described above
  are read as their evident meaning. The abstract-class versus composition
  layout of `FFX` is not modelled.

=== FILE: arith.dfy ===
/** Natural-number arithmetic used by the numeral codec and the size
    calculations: powers, integer logarithms and division facts. */
module Arith {

  function Pow(b: nat, e: nat): (p: nat)
    ensures b >= 1 ==> p >= 1
    decreases e
  {
    if e == 0 then 1 else b * Pow(b, e - 1)
  }

  lemma MulAtLeast(a: nat, b: nat, x: nat, y: nat)
    requires a >= x && b >= y
    ensures a * b >= x * y
  {
    assert a * b >= x * b;
    assert x * b >= x * y;
  }

  lemma MulStrict(a: nat, b: nat, x: nat)
    requires b > x && a >= 1
    ensures a * b > a * x
  {
    assert a * b == a * x + a * (b - x);
  }

  lemma MulAssoc(a: int, b: int, c: int)
    ensures a * (b * c) == (a * b) * c
  {
  }

  /** Powers of a base of at least 2 strictly increase. */
  lemma {:induction false} PowStrictlyIncreasing(b: nat, i: nat, j: nat)
    requires b >= 2 && i < j
    ensures Pow(b, i) < Pow(b, j)
    decreases j
  {
    if i < j - 1 {
      PowStrictlyIncreasing(b, i, j - 1);
    }
    assert Pow(b, j) == b * Pow(b, j - 1);
    MulStrict(Pow(b, j - 1), b, 1);
  }

  lemma PowMonotone(b: nat, i: nat, j: nat)
    requires b >= 2 && i <= j
    ensures Pow(b, i) <= Pow(b, j)
  {
    if i < j {
      PowStrictlyIncreasing(b, i, j);
    }
  }

  lemma {:induction false} PowAdd(b: nat, i: nat, j: nat)
    ensures Pow(b, i + j) == Pow(b, i) * Pow(b, j)
    decreases i
  {
    if i > 0 {
      PowAdd(b, i - 1, j);
      var p, q := Pow(b, i - 1), Pow(b, j);
      assert Pow(b, i + j) == b * Pow(b, i - 1 + j);
      MulAssoc(b, p, q);
    }
  }

  /** 2^(8k) = 256^k: a shift by 8k bits is a power of the byte base. */
  lemma {:induction false} PowBitsBytes(k: nat)
    ensures Pow(2, 8 * k) == Pow(256, k)
    decreases k
  {
    if k > 0 {
      PowBitsBytes(k - 1);
      PowAdd(2, 8, 8 * (k - 1));
      assert 8 * k == 8 + 8 * (k - 1);
      assert Pow(2, 8) == 256;
    }
  }

  /** Euclidean division is determined by any quotient/remainder pair. */
  lemma DivModUnique(x: int, m: int, q: int, r: int)
    requires m > 0 && 0 <= r < m && x == q * m + r
    ensures x / m == q && x % m == r
  {
    var q0, r0 := x / m, x % m;
    assert x == q0 * m + r0;
    if q0 < q {
      assert (q - q0) * m == r0 - r;
      MulAtLeast(q - q0, m, 1, m);
      assert false;
    } else if q0 > q {
      assert (q0 - q) * m == r - r0;
      MulAtLeast(q0 - q, m, 1, m);
      assert false;
    }
  }

  /** Splitting a modulus a*b into a low digit (mod a) and the rest. */
  lemma ModMulSplit(x: nat, a: nat, b: nat)
    requires a > 0 && b > 0
    ensures x % (a * b) == (x / a % b) * a + x % a
  {
    var q, r0 := x / a, x % a;
    var hi, lo := q / b, q % b;
    assert x == q * a + r0;
    assert q == hi * b + lo;
    assert q * a == hi * (a * b) + lo * a by {
      MulAssoc(hi, b, a);
    }
    assert lo * a + r0 < a * b by {
      MulAtLeast(b - 1, a, lo, a);
      assert (b - 1) * a == a * b - a;
    }
    DivModUnique(x, a * b, hi, lo * a + r0);
  }

  /** Adding y and then subtracting it modulo M gives the value back. */
  lemma ModAddSub(a: int, y: int, m: int)
    requires m > 0
    ensures ((a + y) % m - y) % m == a % m
  {
    var k := (a + y) / m;
    assert (a + y) % m - y == a - k * m;
    DivModUnique(a - k * m, m, a / m - k, a % m);
  }

  /** Subtracting y and then adding it modulo M gives the value back. */
  lemma ModSubAdd(a: int, y: int, m: int)
    requires m > 0
    ensures ((a - y) % m + y) % m == a % m
  {
    var k := (a - y) / m;
    assert (a - y) % m + y == a - k * m;
    DivModUnique(a - k * m, m, a / m - k, a % m);
  }

  lemma ModSmall(x: int, m: int)
    requires 0 <= x < m
    ensures x % m == x
  {
    DivModUnique(x, m, 0, x);
  }

  /** The least k with base^k >= x (ceil(log_base x)), found without
      floating point by trying k = 0, 1, 2, ... */
  function CeilLog(base: nat, x: nat): (k: nat)
    requires base >= 2
    ensures x <= Pow(base, k)
    ensures k > 0 ==> Pow(base, k - 1) < x
  {
    CeilLogFrom(base, x, 0)
  }

  function CeilLogFrom(base: nat, x: nat, k: nat): (r: nat)
    requires base >= 2 && (k > 0 ==> Pow(base, k - 1) < x)
    ensures x <= Pow(base, r)
    ensures r > 0 ==> Pow(base, r - 1) < x
    decreases x - Pow(base, k)
  {
    if x <= Pow(base, k) then k
    else
      PowStrictlyIncreasing(base, k, k + 1);
      CeilLogFrom(base, x, k + 1)
  }

  /** Any exponent whose power reaches x bounds CeilLog from above. */
  lemma CeilLogLeast(base: nat, x: nat, k: nat)
    requires base >= 2 && x <= Pow(base, k)
    ensures CeilLog(base, x) <= k
  {
    var c := CeilLog(base, x);
    if c > k {
      PowMonotone(base, k, c - 1);
    }
  }

  /** The largest k with base^k <= x (floor(log_base x)), by trying
      k = 0, 1, 2, ... */
  function FloorLog(base: nat, x: nat): (k: nat)
    requires base >= 2 && x >= 1
    ensures Pow(base, k) <= x < Pow(base, k + 1)
  {
    FloorLogFrom(base, x, 0)
  }

  function FloorLogFrom(base: nat, x: nat, k: nat): (r: nat)
    requires base >= 2 && Pow(base, k) <= x
    ensures Pow(base, r) <= x < Pow(base, r + 1)
    decreases x - Pow(base, k)
  {
    if x < Pow(base, k + 1) then k
    else
      PowStrictlyIncreasing(base, k, k + 1);
      FloorLogFrom(base, x, k + 1)
  }

  /** FloorLog is the only exponent between those powers. */
  lemma FloorLogUnique(base: nat, x: nat, k: nat)
    requires base >= 2 && Pow(base, k) <= x < Pow(base, k + 1)
    ensures FloorLog(base, x) == k
  {
    var f := FloorLog(base, x);
    if f < k {
      PowMonotone(base, f + 1, k);
    } else if f > k {
      PowMonotone(base, k + 1, f);
    }
  }

  /** Any exponent whose power stays within x bounds FloorLog from below. */
  lemma FloorLogGreatest(base: nat, x: nat, k: nat)
    requires base >= 2 && x >= 1 && Pow(base, k) <= x
    ensures k <= FloorLog(base, x)
  {
    var f := FloorLog(base, x);
    if k > f {
      PowMonotone(base, f + 1, k);
    }
  }

  /** The floor of the logarithm of a square is at least twice the floor
      of the logarithm. */
  lemma FloorLogSquare(base: nat, h: nat)
    requires base >= 2 && h >= 1
    ensures 2 * FloorLog(base, h) <= FloorLog(base, h * h)
  {
    var k := FloorLog(base, h);
    var p := Pow(base, k);
    PowAdd(base, k, k);
    MulAtLeast(h, h, p, p);
    assert h * h >= 1 by { MulAtLeast(h, h, 1, 1); }
    FloorLogGreatest(base, h * h, k + k);
  }

  /** FloorLogSquare for a power: the floor of log(b^(2e)) is at least
      twice the floor of log(b^e). */
  lemma FloorLogPowSquare(base: nat, b: nat, e: nat)
    requires base >= 2 && b >= 1
    ensures 2 * FloorLog(base, Pow(b, e)) <= FloorLog(base, Pow(b, 2 * e))
  {
    PowAdd(b, e, e);
    FloorLogSquare(base, Pow(b, e));
  }

  /** A power is monotone in its base. */
  lemma {:induction false} PowLeBase(a: nat, b: nat, e: nat)
    requires a <= b
    ensures Pow(a, e) <= Pow(b, e)
    decreases e
  {
    if e > 0 {
      PowLeBase(a, b, e - 1);
      MulAtLeast(b, Pow(b, e - 1), a, Pow(a, e - 1));
    }
  }

  /** (b^i)^j = b^(i*j). */
  lemma {:induction false} PowMul(b: nat, i: nat, j: nat)
    ensures Pow(Pow(b, i), j) == Pow(b, i * j)
    decreases j
  {
    if j > 0 {
      PowMul(b, i, j - 1);
      assert i * j == i + i * (j - 1);
      PowAdd(b, i, i * (j - 1));
    }
  }

  lemma DivUpper(x: nat, m: nat, k: nat)
    requires m > 0 && x < m * k
    ensures x / m < k
  {
    DivBounds(x, m, x / m);
    assert m * (k - x / m) > 0;
  }

  lemma DivDecreases(x: nat, m: nat)
    requires x >= 1 && m >= 2
    ensures x / m < x
  {
    DivBounds(x, m, x / m);
    MulAtLeast(m, x / m, 2, x / m);
  }

  lemma DivBounds(x: nat, m: nat, q: nat)
    requires m > 0 && q == x / m
    ensures m * q <= x < m * (q + 1)
  {
    assert x == q * m + x % m;
  }
}

=== FILE: blockfn.dfy ===
/** The keyed block function of the FFX layer: AES in CBC mode with a zero
    IV, used as a MAC (`prf`) and, on a single block, as plain block
    encryption (`ciph`).  The AES primitive itself is a parameter: any
    function from a key and a 16-byte block to a 16-byte block. */
module BlockFn {
  import opened Wrappers
  import opened Bytes

  /** AES encryption of one block under a key. */
  type Aes = (seq<byte>, Block) -> Block

  /** CBC-MAC with a zero IV: the last ciphertext block of CBC encryption,
      C_k = E(key, C_{k-1} xor P_k) with C_0 the zero IV. */
  function CbcMac(aes: Aes, key: seq<byte>, msg: seq<byte>): Block
    requires |msg| % 16 == 0
    decreases |msg|
  {
    if |msg| == 0 then ZeroBlock
    else aes(key, Xor(CbcMac(aes, key, msg[..|msg| - 16]), msg[|msg| - 16..]))
  }

  /** CBC-MAC over one more block: the MAC of the first i bytes, xored
      into the next block and encrypted. */
  lemma CbcMacAppend(aes: Aes, key: seq<byte>, msg: seq<byte>, i: nat)
    requires i + 16 <= |msg| && i % 16 == 0
    ensures CbcMac(aes, key, msg[..i + 16])
         == aes(key, Xor(CbcMac(aes, key, msg[..i]), msg[i..i + 16]))
  {
    var pre := msg[..i + 16];
    assert pre[..i] == msg[..i];
    assert pre[i..] == msg[i..i + 16];
  }

  /** On one block CBC-MAC is the block encryption, the IV being zero. */
  lemma CbcMacOneBlock(aes: Aes, key: seq<byte>, blk: Block)
    ensures CbcMac(aes, key, blk) == aes(key, blk)
  {
    assert blk[..0] == [];
    assert ZeroBlock == Zeros(16);
    XorZeros(blk);
  }

  /** The number of 16-byte blocks the `prf` loop processes: offsets
      i = 0, 16, 32, ... while i < len and i < avail. */
  function BlockCount(avail: nat, len: int): nat
  {
    if len <= 0 then 0
    else if (len + 15) / 16 <= avail / 16 then (len + 15) / 16
    else avail / 16
  }

  /** With i a multiple of 16 up to the processed length, the loop test
      i < len && i < avail holds exactly below that length, which never
      passes avail. */
  lemma BlockCountLoop(avail: nat, len: int, i: nat)
    requires avail % 16 == 0 && i % 16 == 0 && i <= 16 * BlockCount(avail, len)
    ensures (i < len && i < avail) <==> i < 16 * BlockCount(avail, len)
    ensures 16 * BlockCount(avail, len) <= avail
    ensures i < 16 * BlockCount(avail, len) ==> i + 16 <= 16 * BlockCount(avail, len)
    ensures (i + 16) % 16 == 0
  {
    var k := i / 16;
    assert i == 16 * k;
    var a := avail / 16;
    assert avail == 16 * a;
    if len > 0 {
      var q := (len + 15) / 16;
      assert len <= 16 * q < len + 16;
      if q <= a {
        assert BlockCount(avail, len) == q;
        assert k <= q;
        if k < q {
          assert 16 * k <= 16 * q - 16;
        }
      } else {
        assert BlockCount(avail, len) == a;
        assert k <= a;
        if k < a {
          assert 16 * k <= 16 * q - 32;
        }
      }
    }
  }

  /** `prf(dst, doff, src, soff, len)`: CBC-encrypt the blocks of src from
      soff onward, at most len bytes' worth, starting from a zero chaining
      value, and leave the last ciphertext block in dst; the chaining
      value is reset afterwards, so one call never affects the next.  The
      incoming content of dst (the 16 bytes at doff) is what is returned
      when no block is processed, as it is for an soff past the end of src
      (whole blocks before it, by the source length test).  Java's `%`
      truncates toward zero, but it gives zero exactly when Dafny's does,
      so the test reads the same for a negative length. */
  method Prf(aes: Aes, key: seq<byte>, dst: Block, src: seq<byte>, soff: nat, len: int)
    returns (r: Result<Block>)
    ensures r.Err? <==> (|src| - soff) % 16 != 0
    ensures r.Err? ==> r.error == SourceLength
    ensures r.Ok? && soff > |src| ==> r.value == dst
    ensures r.Ok? && soff <= |src| ==> var k := BlockCount(|src| - soff, len);
      r.value == if k == 0 then dst else CbcMac(aes, key, src[soff..soff + 16 * k])
  {
    if (|src| - soff) % 16 != 0 {
      return Err(SourceLength);
    }
    if soff > |src| {
      return Ok(dst);
    }
    var msg := src[soff..];
    var out := Chain(aes, key, dst, msg, len);
    var k := BlockCount(|msg|, len);
    assert msg[..16 * k] == src[soff..soff + 16 * k];
    return Ok(out);
  }

  /** The `prf` loop over whole blocks: chain through the first
      BlockCount blocks of msg, dst being the result when there are none. */
  method Chain(aes: Aes, key: seq<byte>, dst: Block, msg: seq<byte>, len: int) returns (out: Block)
    requires |msg| % 16 == 0
    ensures var k := BlockCount(|msg|, len);
      16 * k <= |msg| && out == if k == 0 then dst else CbcMac(aes, key, msg[..16 * k])
  {
    out := dst;
    var chain := ZeroBlock;
    var i := 0;
    while i < len && i < |msg|
      invariant 0 <= i <= |msg| && i % 16 == 0
      invariant i <= 16 * BlockCount(|msg|, len)
      invariant chain == CbcMac(aes, key, msg[..i])
      invariant out == if i == 0 then dst else chain
      decreases |msg| - i
    {
      BlockCountLoop(|msg|, len, i);
      var blk := msg[i..i + 16];
      CbcMacAppend(aes, key, msg, i);
      chain := aes(key, Xor(chain, blk));
      out := chain;
      i := i + 16;
    }
    BlockCountLoop(|msg|, len, i);
  }

  /** The older `prf(src)`: the whole source, which must be a multiple of
      16 bytes long, into a fresh zero block. */
  method PrfAll(aes: Aes, key: seq<byte>, src: seq<byte>) returns (r: Result<Block>)
    ensures r.Err? <==> |src| % 16 != 0
    ensures r.Err? ==> r.error == SourceLength
    ensures r.Ok? ==> r.value == CbcMac(aes, key, src)
  {
    r := Prf(aes, key, ZeroBlock, src, 0, |src|);
    if r.Ok? {
      assert src[0..|src|] == src;
    }
  }

  /** `ciph(dst, doff, src, soff)`: `prf` limited to one block, i.e. AES
      of the 16 bytes at soff. */
  method Ciph(aes: Aes, key: seq<byte>, dst: Block, src: seq<byte>, soff: nat)
    returns (r: Result<Block>)
    ensures r.Err? <==> (|src| - soff) % 16 != 0
    ensures r.Err? ==> r.error == SourceLength
    ensures r.Ok? && soff < |src| ==> r.value == aes(key, src[soff..soff + 16])
    ensures r.Ok? && soff >= |src| ==> r.value == dst
  {
    r := Prf(aes, key, dst, src, soff, 16);
    if r.Ok? && soff < |src| {
      CbcMacOneBlock(aes, key, src[soff..soff + 16]);
    }
  }

  /** The convenience `ciph(src)`: a fresh zero output block. */
  method CiphBlock(aes: Aes, key: seq<byte>, src: Block) returns (r: Result<Block>)
    ensures r == Ok(aes(key, src))
  {
    r := Ciph(aes, key, ZeroBlock, src, 0);
    assert src[0..16] == src;
  }

  /** The older `ciph(src)`: rejects anything but exactly one block. */
  method CiphExact(aes: Aes, key: seq<byte>, src: seq<byte>) returns (r: Result<Block>)
    ensures r.Ok? <==> |src| == 16
    ensures r.Err? ==> r.error == SourceLength
    ensures r.Ok? ==> r.value == aes(key, src)
  {
    if |src| != 16 {
      return Err(SourceLength);
    }
    r := PrfAll(aes, key, src);
    CbcMacOneBlock(aes, key, src);
  }
}

=== FILE: bytes.dfy ===
/** Byte utilities of the FFX layer: reversal, exclusive-or, big-endian
    integers, and the two's-complement export `BigInteger.toByteArray`
    together with the way the ciphers pack it into a fixed-width field. */
module Bytes {
  import opened Arith

  /** A 16-byte AES block. */
  type Block = s: seq<byte> | |s| == 16
    witness [0, 0, 0, 0, 0, 0, 0, 0, 0, 0, 0, 0, 0, 0, 0, 0]

  const ZeroBlock: Block := [0, 0, 0, 0, 0, 0, 0, 0, 0, 0, 0, 0, 0, 0, 0, 0]

  /** An octet, as the unsigned value 0..255 of a Java byte. */
  newtype byte = x: int | 0 <= x < 256

  /** Bitwise exclusive-or of the low k bits of a and b. */
  function XorBits(a: nat, b: nat, k: nat): (c: nat)
    ensures c < Pow(2, k)
    decreases k
  {
    if k == 0 then 0
    else
      var rest := XorBits(a / 2, b / 2, k - 1);
      (a % 2 + b % 2) % 2 + 2 * rest
  }

  lemma {:induction false} XorBitsCancel(a: nat, b: nat, k: nat)
    ensures XorBits(XorBits(a, b, k), b, k) == a % Pow(2, k)
    decreases k
  {
    if k > 0 {
      var c := XorBits(a, b, k);
      var p := Pow(2, k - 1);
      XorBitsSplit(a, b, k);
      XorBitsSplit(c, b, k);
      XorBitsCancel(a / 2, b / 2, k - 1);
      ParityCancel(a, b);
      assert XorBits(c, b, k) == a % 2 + 2 * (a / 2 % p);
      ModMulSplit(a, 2, p);
      assert Pow(2, k) == 2 * p;
    }
  }

  /** The lowest bit and the remaining bits of an exclusive-or. */
  lemma XorBitsSplit(a: nat, b: nat, k: nat)
    requires k > 0
    ensures XorBits(a, b, k) % 2 == (a % 2 + b % 2) % 2
    ensures XorBits(a, b, k) / 2 == XorBits(a / 2, b / 2, k - 1)
    ensures XorBits(a, b, k) == (a % 2 + b % 2) % 2 + 2 * XorBits(a / 2, b / 2, k - 1)
  {
    DivModUnique(XorBits(a, b, k), 2, XorBits(a / 2, b / 2, k - 1), (a % 2 + b % 2) % 2);
  }

  lemma ParityCancel(a: nat, b: nat)
    ensures ((a % 2 + b % 2) % 2 + b % 2) % 2 == a % 2
  {
  }

  /** Bitwise exclusive-or of two octets. */
  function XorByte(a: byte, b: byte): (c: byte)
  {
    assert Pow(2, 8) == 256;
    XorBits(a as nat, b as nat, 8) as byte
  }

  lemma XorByteCancel(a: byte, m: byte)
    ensures XorByte(XorByte(a, m), m) == a
  {
    assert Pow(2, 8) == 256;
    XorBitsCancel(a as nat, m as nat, 8);
    ModSmall(a as nat, 256);
  }

  /** Zero is the identity of exclusive-or. */
  lemma {:induction false} XorBitsZero(b: nat, k: nat)
    ensures XorBits(0, b, k) == b % Pow(2, k)
    decreases k
  {
    if k > 0 {
      var p := Pow(2, k - 1);
      var h := XorBits(0, b / 2, k - 1);
      XorBitsSplit(0, b, k);
      assert XorBits(0, b, k) == b % 2 + 2 * h;
      XorBitsZero(b / 2, k - 1);
      assert h == b / 2 % p;
      ModMulSplit(b, 2, p);
      assert b % (2 * p) == h * 2 + b % 2;
      assert Pow(2, k) == 2 * p;
    }
  }

  lemma XorByteZero(b: byte)
    ensures XorByte(0, b) == b
  {
    assert Pow(2, 8) == 256;
    XorBitsZero(b as nat, 8);
    ModSmall(b as nat, 256);
  }

  /** Exclusive-or is commutative. */
  lemma {:induction false} XorBitsComm(a: nat, b: nat, k: nat)
    ensures XorBits(a, b, k) == XorBits(b, a, k)
    decreases k
  {
    if k > 0 {
      XorBitsComm(a / 2, b / 2, k - 1);
      XorBitsSplit(a, b, k);
      XorBitsSplit(b, a, k);
    }
  }

  /** Zero is the identity of exclusive-or on either side. */
  lemma XorByteZeroRight(a: byte)
    ensures XorByte(a, 0) == a
  {
    XorBitsComm(a as nat, 0, 8);
    XorByteZero(a);
  }

  function Zeros(k: nat): (z: seq<byte>)
    ensures |z| == k && forall i :: 0 <= i < k ==> z[i] == 0
  {
    seq(k, _ => 0)
  }

  // ---------------------------------------------------------------------
  // Reversal (bytes and characters alike)
  // ---------------------------------------------------------------------

  /** The elements of `s` in the opposite order. */
  function Rev<T>(s: seq<T>): (r: seq<T>)
    ensures |r| == |s|
    decreases |s|
  {
    if |s| == 0 then [] else [s[|s| - 1]] + Rev(s[..|s| - 1])
  }

  lemma {:induction false} RevIndex<T>(s: seq<T>)
    ensures forall i :: 0 <= i < |s| ==> Rev(s)[i] == s[|s| - 1 - i]
    decreases |s|
  {
    if |s| > 0 {
      var t := s[..|s| - 1];
      RevIndex(t);
      assert Rev(s) == [s[|s| - 1]] + Rev(t);
    }
  }

  /** Reversing twice gives the sequence back. */
  lemma RevInvolution<T>(s: seq<T>)
    ensures Rev(Rev(s)) == s
  {
    RevIndex(s);
    RevIndex(Rev(s));
    var r := Rev(Rev(s));
    assert forall i :: 0 <= i < |s| ==> r[i] == s[i];
  }

  /** `rev` of 1 2 3 4 and of 1 2 3 4 5, and of "abcd" and "abcde". */
  lemma RevExamples(b4: seq<byte>, b5: seq<byte>)
    requires b4 == [1, 2, 3, 4] && b5 == [1, 2, 3, 4, 5]
    ensures Rev(b4) == [4, 3, 2, 1] && Rev(b5) == [5, 4, 3, 2, 1]
    ensures Rev("abcd") == "dcba" && Rev("abcde") == "edcba"
  {
    RevIndex(b4);
    RevIndex(b5);
    RevIndex("abcd");
    RevIndex("abcde");
  }

  /** The in-place reversal loop: swap the i-th element from each end for
      i < n/2, then copy the middle element of an odd-length source.  The
      loop reads src[i] and src[n-1-i] before either is written, so the
      result is the same whether or not dst and src are the same array;
      bytes of dst past |src| are left alone. */
  method RevInto(dst0: seq<byte>, src: seq<byte>) returns (dst: seq<byte>)
    requires |dst0| >= |src|
    ensures |dst| == |dst0|
    ensures dst[..|src|] == Rev(src)
    ensures dst[|src|..] == dst0[|src|..]
  {
    var n := |src|;
    dst := dst0;
    var i := 0;
    while i < n / 2
      invariant 0 <= i <= n / 2
      invariant |dst| == |dst0|
      invariant forall k :: 0 <= k < i ==> dst[k] == src[n - 1 - k] && dst[n - 1 - k] == src[k]
      invariant forall k :: i <= k < n - i ==> dst[k] == dst0[k]
      invariant dst[n..] == dst0[n..]
    {
      var t := src[i];
      dst := dst[i := src[n - 1 - i]];
      dst := dst[n - 1 - i := t];
      i := i + 1;
    }
    if n % 2 == 1 {
      dst := dst[i := src[i]];
    }
    RevIndex(src);
    assert forall k :: 0 <= k < n ==> dst[k] == Rev(src)[k];
  }

  // ---------------------------------------------------------------------
  // Exclusive-or
  // ---------------------------------------------------------------------

  /** Element-wise XOR of the common prefix of two arrays (the older
      `xor(s1, s2)`, whose result has the shorter length). */
  function Xor(s1: seq<byte>, s2: seq<byte>): (d: seq<byte>)
    ensures |d| == if |s1| <= |s2| then |s1| else |s2|
    ensures forall i :: 0 <= i < |d| ==> d[i] == XorByte(s1[i], s2[i])
  {
    var n := if |s1| <= |s2| then |s1| else |s2|;
    seq(n, i requires 0 <= i < n => XorByte(s1[i], s2[i]))
  }

  /** XOR with the same mask twice is the identity. */
  lemma XorCancel(a: seq<byte>, mask: seq<byte>)
    requires |a| <= |mask|
    ensures Xor(Xor(a, mask), mask) == a
  {
    var r := Xor(Xor(a, mask), mask);
    forall i | 0 <= i < |a|
      ensures r[i] == a[i]
    {
      XorByteCancel(a[i], mask[i]);
    }
  }

  /** Exclusive-or with zeros leaves a sequence unchanged. */
  lemma XorZeros(a: seq<byte>)
    ensures Xor(Zeros(|a|), a) == a
  {
    forall i | 0 <= i < |a|
      ensures Xor(Zeros(|a|), a)[i] == a[i]
    {
      XorByteZero(a[i]);
    }
  }

  /** The offset-based `xor(d, doff, s1, s1off, s2, s2off, len)`: writes
      len XORed bytes into d at doff and leaves every other byte of d as
      it was. */
  function XorInto(d: seq<byte>, doff: nat, s1: seq<byte>, s1off: nat,
                   s2: seq<byte>, s2off: nat, len: nat): (r: seq<byte>)
    requires doff + len <= |d| && s1off + len <= |s1| && s2off + len <= |s2|
    ensures |r| == |d|
    ensures r[doff..doff + len] == Xor(s1[s1off..s1off + len], s2[s2off..s2off + len])
    ensures r[..doff] == d[..doff] && r[doff + len..] == d[doff + len..]
  {
    Splice(d, doff, Xor(s1[s1off..s1off + len], s2[s2off..s2off + len]))
  }

  /** s with the bytes at l..l+|blk| replaced by blk. */
  function Splice<T>(s: seq<T>, l: nat, blk: seq<T>): (r: seq<T>)
    requires l + |blk| <= |s|
    ensures |r| == |s| && r[..l] == s[..l] && r[l..l + |blk|] == blk
    ensures r[l + |blk|..] == s[l + |blk|..]
  {
    s[..l] + blk + s[l + |blk|..]
  }

  // ---------------------------------------------------------------------
  // Big-endian unsigned integers
  // ---------------------------------------------------------------------

  /** The unsigned big-endian value of a byte string. */
  function BeValue(s: seq<byte>): nat
    decreases |s|
  {
    if |s| == 0 then 0 else BeValue(s[..|s| - 1]) * 256 + s[|s| - 1] as nat
  }

  /** A w-byte string holds values below 256^w. */
  lemma {:induction false} BeValueBound(s: seq<byte>)
    ensures BeValue(s) < Pow(256, |s|)
    decreases |s|
  {
    if |s| > 0 {
      var hi := BeValue(s[..|s| - 1]);
      BeValueBound(s[..|s| - 1]);
      MulAtLeast(256, Pow(256, |s| - 1) - 1, 256, hi);
    }
  }

  /** x written as w big-endian bytes, as the casts `(byte)(x >> 8k)` write
      it; BeBytesValue states that only x mod 256^w survives. */
  function BeBytes(x: nat, w: nat): (s: seq<byte>)
    ensures |s| == w
    decreases w
  {
    if w == 0 then [] else BeBytes(x / 256, w - 1) + [(x % 256) as byte]
  }

  lemma {:induction false} BeBytesValue(x: nat, w: nat)
    ensures BeValue(BeBytes(x, w)) == x % Pow(256, w)
    decreases w
  {
    if w > 0 {
      BeBytesValue(x / 256, w - 1);
      BeBytesStep(x, w, BeBytes(x / 256, w - 1), BeBytes(x, w));
    }
  }

  lemma BeBytesStep(x: nat, w: nat, hi: seq<byte>, s: seq<byte>)
    requires w >= 1 && |hi| == w - 1 && BeValue(hi) == x / 256 % Pow(256, w - 1)
    requires s == hi + [(x % 256) as byte]
    ensures BeValue(s) == x % Pow(256, w)
  {
    var p := Pow(256, w - 1);
    assert s[..w - 1] == hi;
    assert s[w - 1] as nat == x % 256;
    assert BeValue(s) == BeValue(hi) * 256 + x % 256;
    assert Pow(256, w) == 256 * p;
    ModMulSplit(x, 256, p);
  }

  /** Decoding then re-encoding at the same width gives the bytes back. */
  lemma {:induction false} BeBytesOfValue(s: seq<byte>)
    ensures BeBytes(BeValue(s), |s|) == s
    decreases |s|
  {
    if |s| > 0 {
      var n := |s|;
      var hi := BeValue(s[..n - 1]);
      DivModUnique(BeValue(s), 256, hi, s[n - 1] as nat);
      BeBytesOfValue(s[..n - 1]);
      assert s == s[..n - 1] + [s[n - 1]];
    }
  }

  /** Big-endian encoding is injective at a fixed width. */
  lemma BeValueInjective(s: seq<byte>, t: seq<byte>)
    requires |s| == |t| && BeValue(s) == BeValue(t)
    ensures s == t
  {
    BeBytesOfValue(s);
    BeBytesOfValue(t);
  }

  /** Leading zero bytes do not change the value. */
  lemma {:induction false} BeValueLeadingZeros(k: nat, s: seq<byte>)
    ensures BeValue(Zeros(k) + s) == BeValue(s)
    decreases |s|
  {
    if |s| == 0 {
      ZerosValue(k);
      assert Zeros(k) + s == Zeros(k);
    } else {
      var t := Zeros(k) + s;
      assert t[..|t| - 1] == Zeros(k) + s[..|s| - 1];
      BeValueLeadingZeros(k, s[..|s| - 1]);
    }
  }

  lemma {:induction false} ZerosValue(k: nat)
    ensures BeValue(Zeros(k)) == 0
    decreases k
  {
    if k > 0 {
      assert Zeros(k)[..k - 1] == Zeros(k - 1);
      ZerosValue(k - 1);
    }
  }

  /** Widening a big-endian encoding only adds leading zero bytes. */
  lemma BeBytesWiden(x: nat, l: nat, w: nat)
    requires l <= w && x < Pow(256, l)
    ensures BeBytes(x, w) == Zeros(w - l) + BeBytes(x, l)
  {
    var s := Zeros(w - l) + BeBytes(x, l);
    WidenedValue(x, l, w);
    BeBytesOfValue(s);
  }

  lemma WidenedValue(x: nat, l: nat, w: nat)
    requires l <= w && x < Pow(256, l)
    ensures |Zeros(w - l) + BeBytes(x, l)| == w
    ensures BeValue(Zeros(w - l) + BeBytes(x, l)) == x
  {
    BeBytesValue(x, l);
    BeValueLeadingZeros(w - l, BeBytes(x, l));
    ModSmall(x, Pow(256, l));
  }

  // ---------------------------------------------------------------------
  // Two's complement (java.math.BigInteger)
  // ---------------------------------------------------------------------

  /** `new BigInteger(bytes)`: the big-endian two's-complement value. */
  function SignedBe(s: seq<byte>): int
  {
    BeValue(s) - (if |s| > 0 && s[0] >= 0x80 then Pow(256, |s|) else 0)
  }

  /** Reducing the signed reading modulo 2^(8|s|) yields the unsigned
      big-endian value; this is why `y.mod(ONE.shiftLeft(8*d))` is there. */
  lemma UnsignedOfSigned(s: seq<byte>)
    ensures SignedBe(s) % Pow(2, 8 * |s|) == BeValue(s)
  {
    PowBitsBytes(|s|);
    BeValueBound(s);
    var m := Pow(256, |s|);
    if |s| > 0 && s[0] >= 0x80 {
      DivModUnique(SignedBe(s), m, -1, BeValue(s));
    } else {
      ModSmall(BeValue(s), m);
    }
  }

  /** The length of `BigInteger.toByteArray()` for a non-negative value:
      the fewest bytes whose two's-complement reading is c, i.e. the least
      L >= 1 with c < 2^(8L-1). */
  function TwosLength(c: nat): (l: nat)
    ensures l >= 1
    ensures c < 128 * Pow(256, l - 1)
    ensures l > 1 ==> 128 * Pow(256, l - 2) <= c
    decreases c
  {
    if c < 128 then 1
    else
      var l' := TwosLength(c / 256);
      TwosLengthStep(c, l');
      1 + l'
  }

  lemma TwosLengthStep(c: nat, l': nat)
    requires c >= 128 && l' >= 1 && c / 256 < 128 * Pow(256, l' - 1)
    requires l' > 1 ==> 128 * Pow(256, l' - 2) <= c / 256
    ensures c < 128 * Pow(256, l') && 128 * Pow(256, l' - 1) <= c
  {
    DivBounds(c, 256, c / 256);
    assert Pow(256, l') == 256 * Pow(256, l' - 1);
    MulAtLeast(256, 128 * Pow(256, l' - 1), 256, c / 256 + 1);
    if l' > 1 {
      assert Pow(256, l' - 1) == 256 * Pow(256, l' - 2);
      MulAtLeast(256, c / 256, 256, 128 * Pow(256, l' - 2));
    }
  }

  /** TwosLength is pinned down by its two bounds. */
  lemma TwosLengthUnique(c: nat, l: nat)
    requires l >= 1 && c < 128 * Pow(256, l - 1)
    requires l > 1 ==> 128 * Pow(256, l - 2) <= c
    ensures TwosLength(c) == l
  {
    var t := TwosLength(c);
    if t < l {
      PowMonotone(256, t - 1, l - 2);
    } else if t > l {
      PowMonotone(256, l - 1, t - 2);
    }
  }

  /** A value below 2^(8w-1) encodes with a leading byte below 0x80. */
  lemma {:induction false} BeBytesLeadingSmall(x: nat, w: nat)
    requires w >= 1 && x < 128 * Pow(256, w - 1)
    ensures BeBytes(x, w)[0] < 0x80
    decreases w
  {
    if w > 1 {
      assert 128 * Pow(256, w - 1) == 256 * (128 * Pow(256, w - 2));
      DivUpper(x, 256, 128 * Pow(256, w - 2));
      BeBytesLeadingSmall(x / 256, w - 1);
    }
  }

  /** `BigInteger.valueOf(c).toByteArray()` for c >= 0: the minimal
      two's-complement big-endian array, TwosLength(c) bytes long. */
  function ToByteArray(c: nat): (a: seq<byte>)
    ensures |a| == TwosLength(c)
  {
    BeBytes(c, TwosLength(c))
  }

  /** Reading the array back with `new BigInteger(bytes)` gives c. */
  lemma ToByteArrayValue(c: nat)
    ensures SignedBe(ToByteArray(c)) == c
  {
    var l := TwosLength(c);
    BeBytesLeadingSmall(c, l);
    assert Pow(256, l) == 256 * Pow(256, l - 1);
    ModSmall(c, Pow(256, l));
    BeBytesValue(c, l);
  }

  /** How FF1 (width b) and FF3-1 (width 12) store NUM(B) into a field of
      w bytes: a short two's-complement array is right-aligned after zero
      bytes; an array at least w long has its LEADING w bytes copied. */
  function Pack(c: nat, w: nat): (f: seq<byte>)
    ensures |f| == w
  {
    var a := ToByteArray(c);
    if w <= |a| then a[..w] else Zeros(w - |a|) + a
  }

  /** Below 2^(8w-1) the packed field is the w-byte big-endian encoding
      that the standard's [x]^w denotes. */
  lemma PackIsBigEndian(c: nat, w: nat)
    requires w >= 1 && c < 128 * Pow(256, w - 1)
    ensures Pack(c, w) == BeBytes(c, w)
    ensures BeValue(Pack(c, w)) == c
  {
    var l := TwosLength(c);
    TwosLengthAtMost(c, w);
    BelowFullWidth(c, l);
    BelowFullWidth(c, w);
    PackFits(c, w);
    ModSmall(c, Pow(256, w));
  }

  lemma TwosLengthAtMost(c: nat, w: nat)
    requires w >= 1 && c < 128 * Pow(256, w - 1)
    ensures TwosLength(c) <= w
  {
    var l := TwosLength(c);
    if l > w {
      PowMonotone(256, w - 1, l - 2);
    }
  }

  lemma BelowFullWidth(c: nat, w: nat)
    requires w >= 1 && c < 128 * Pow(256, w - 1)
    ensures c < Pow(256, w)
  {
    assert Pow(256, w) == 256 * Pow(256, w - 1);
  }

  lemma PackFits(c: nat, w: nat)
    requires TwosLength(c) <= w && c < Pow(256, TwosLength(c))
    ensures Pack(c, w) == BeBytes(c, w)
  {
    var l := TwosLength(c);
    PackLayout(c, w);
    if l < w {
      BeBytesWiden(c, l, w);
    } else {
      var a := BeBytes(c, l);
      assert a[..w] == a;
    }
  }

  /** Pack unfolded: a right-aligned copy when the array is shorter than
      the field, its first w bytes otherwise. */
  lemma PackLayout(c: nat, w: nat)
    ensures TwosLength(c) < w ==> Pack(c, w) == Zeros(w - TwosLength(c)) + BeBytes(c, TwosLength(c))
    ensures TwosLength(c) >= w ==> Pack(c, w) == BeBytes(c, TwosLength(c))[..w]
  {
  }

  /** From 2^(8w-1) up to 256^w the two's-complement array has a leading
      sign byte 0x00 and w+1 bytes; copying its first w bytes stores
      c / 256 instead of c, losing the low byte. */
  lemma PackDropsLowByte(c: nat, w: nat)
    requires w >= 1 && 128 * Pow(256, w - 1) <= c < Pow(256, w)
    ensures Pack(c, w) == BeBytes(c / 256, w)
    ensures BeValue(Pack(c, w)) == c / 256
  {
    assert Pow(256, w) == 256 * Pow(256, w - 1);
    TwosLengthUnique(c, w + 1);
    var a := BeBytes(c, w + 1);
    assert a[..w] == BeBytes(c / 256, w);
    DivUpper(c, 256, Pow(256, w - 1));
    PowMonotone(256, w - 1, w);
    ModSmall(c / 256, Pow(256, w));
  }

  /** A concrete case: 32768 = 0x8000 in a 2-byte field is stored as
      00 80 rather than 80 00. */
  lemma PackExample()
    ensures Pack(32768, 2) == [0x00, 0x80]
    ensures BeBytes(32768, 2) == [0x80, 0x00]
  {
    assert TwosLength(32768) == 3;
    assert BeBytes(32768, 3) == [0x00, 0x80, 0x00];
  }
}

=== FILE: feistel.dfy ===
/** The Feistel structure FF1 and FF3-1 share: a fixed number of rounds,
    each turning the state (A, B) into (B, C), where round i of one
    direction and round N - 1 - i of the other undo each other on the
    swapped state.  The facts here hold for every round function; the
    ciphers supply their own rounds and the invariant their rounds keep
    (the halves are numerals of the lengths the next round expects). */
module Feistel {

  /** The two halves (A, B) between rounds. */
  type Pair = (string, string)

  /** A round: the direction (true when encrypting), the round number and
      the state before it, to the state after it. */
  type Step = (bool, nat, Pair) -> Pair

  /** What holds of the state before round i in a given direction. */
  type Inv = (bool, nat, Pair) -> bool

  function Swap(st: Pair): (r: Pair)
    ensures r.0 == st.1 && r.1 == st.0
  {
    (st.1, st.0)
  }

  /** The first k rounds of one direction, applied in order 0, 1, ..., k-1. */
  function Iterate(G: Step, enc: bool, k: nat, st: Pair): Pair
    decreases k
  {
    if k == 0 then st else G(enc, k - 1, Iterate(G, enc, k - 1, st))
  }

  /** Every one of the N rounds keeps the invariant. */
  ghost predicate Preserves(G: Step, I: Inv, enc: bool, N: nat)
  {
    forall i: nat, s: Pair :: i < N && I(enc, i, s) ==> I(enc, i + 1, G(enc, i, s))
  }

  /** Round N - 1 - i of the other direction undoes round i on the swapped
      state, wherever the invariant holds. */
  ghost predicate Undoes(G: Step, I: Inv, enc: bool, N: nat)
  {
    forall i: nat, s: Pair :: i < N && I(enc, i, s) ==>
      G(!enc, N - 1 - i, Swap(G(enc, i, s))) == Swap(s)
  }

  /** The invariant holds after any number of rounds up to N. */
  lemma {:induction false} IterateKeeps(G: Step, I: Inv, enc: bool, N: nat, k: nat, st: Pair)
    requires Preserves(G, I, enc, N) && I(enc, 0, st) && k <= N
    ensures I(enc, k, Iterate(G, enc, k, st))
    decreases k
  {
    if k > 0 {
      IterateKeeps(G, I, enc, N, k - 1, st);
      var prev := Iterate(G, enc, k - 1, st);
      assert I(enc, k - 1, prev);
    }
  }

  /** The last j rounds undone: j rounds of the other direction on the
      swapped state after all N rounds give the swapped state after
      N - j; for j = N that is the swapped input. */
  lemma {:induction false} IterateInverse(G: Step, I: Inv, enc: bool, N: nat, j: nat, st: Pair)
    requires Preserves(G, I, enc, N) && Undoes(G, I, enc, N)
    requires I(enc, 0, st) && j <= N
    ensures Iterate(G, !enc, j, Swap(Iterate(G, enc, N, st)))
         == Swap(Iterate(G, enc, N - j, st))
    decreases j
  {
    if j > 0 {
      IterateInverse(G, I, enc, N, j - 1, st);
      var w := Iterate(G, enc, N - j, st);
      IterateKeeps(G, I, enc, N, N - j, st);
      assert Iterate(G, enc, N - (j - 1), st) == G(enc, N - j, w);
      assert G(!enc, j - 1, Swap(G(enc, N - j, w))) == Swap(w);
    }
  }

  /** Running all N rounds and then all N rounds of the other direction on
      the swapped result gives the input back. */
  lemma RoundTrip(G: Step, I: Inv, enc: bool, N: nat, st: Pair)
    requires Preserves(G, I, enc, N) && Undoes(G, I, enc, N) && I(enc, 0, st)
    ensures Swap(Iterate(G, !enc, N, Swap(Iterate(G, enc, N, st)))) == st
  {
    IterateInverse(G, I, enc, N, N, st);
  }
}

=== FILE: ff1.dfy ===
/** FF1 (NIST SP 800-38G Rev. 1, algorithms 7 and 8) as the library's `FF1`
    class computes it: a ten-round Feistel network on the two halves of a
    numeral string whose round function is a CBC-MAC of a header block P
    and a tweak-and-half block Q, stretched by AES in counter fashion. */
module Ff1 {
  import opened Wrappers
  import opened Arith
  import opened Bytes
  import opened Numeral
  import opened BlockFn
  import Ffx
  import Feistel
  import Halves

  /** FF1 accepts texts of up to 2^32 characters. */
  const TxtMax: nat := 0x1_0000_0000

  const Rounds: nat := 10

  /** The FF1 constructor: an FFX context with txtmax 2^32.  With that
      bound the minimum-length check can never fail. */
  function New(key: seq<byte>, twk: Option<seq<byte>>, twkmin: int, twkmax: int, radix: int)
    : (r: Result<Ffx.Context>)
    ensures r.Ok? <==>
              && Ffx.KeySizeOk(key) && 2 <= radix <= 36 && twk.Some?
              && twkmin <= twkmax && Ffx.TweakFits(|twk.value|, twkmin, twkmax)
    ensures !Ffx.KeySizeOk(key) ==> r == Err(KeySize)
    ensures Ffx.KeySizeOk(key) && !(2 <= radix <= 36) ==> r == Err(Radix)
    ensures Ffx.KeySizeOk(key) && 2 <= radix <= 36 && twk.None? ==> r == Err(NullTweak)
    ensures Ffx.KeySizeOk(key) && 2 <= radix <= 36 && twk.Some?
              && !(twkmin <= twkmax && Ffx.TweakFits(|twk.value|, twkmin, twkmax)) ==>
              r == Err(TweakLength)
    ensures r.Err? ==> r.error in {KeySize, Radix, NullTweak, TweakLength}
    ensures r.Ok? ==> Ffx.Valid(r.value) && r.value.txtmax == TxtMax && r.value.key == key
    ensures r.Ok? ==> r.value.radix == radix && r.value.twk == twk.value
  {
    if 2 <= radix <= 36 then
      Ffx.TxtMinRange(radix);
      Ffx.New(key, twk, TxtMax, twkmin, twkmax, radix)
    else
      Ffx.New(key, twk, TxtMax, twkmin, twkmax, radix)
  }

  /** Everything one cipher call fixes: the block function and key, the
      radix, the text length and the tweak in use. */
  datatype Setup = Setup(aes: Aes, key: seq<byte>, radix: nat, n: nat, twk: seq<byte>)

  /** The radix is a valid one and the text has two non-empty halves. */
  predicate WellFormed(s: Setup)
  {
    2 <= s.radix <= 36 && s.n >= 2
  }

  /** The lengths of the two halves: u = floor(n/2), v = n - u. */
  function U(n: nat): nat { n / 2 }
  function V(n: nat): nat { n - n / 2 }

  /** FF1 cuts the text after its first u characters. */
  function Halving(n: nat): Halves.Cut
  {
    Halves.Cut(U(n), V(n))
  }

  /** b, the number of bytes that hold any v-digit numeral:
      ceil(ceil(v * log2(radix)) / 8), the least b with radix^v <= 256^b. */
  function NumBytes(radix: nat, v: nat): (b: nat)
    requires radix >= 2
    ensures Pow(radix, v) <= Pow(256, b)
    ensures b > 0 ==> Pow(256, b - 1) < Pow(radix, v)
  {
    CeilLog(256, Pow(radix, v))
  }

  /** d = 4 * ceil(b/4) + 4, the number of bytes of the round output used. */
  function D(b: nat): (d: nat)
    ensures d % 4 == 0 && b + 4 <= d < b + 8
  {
    4 * ((b + 3) / 4) + 4
  }

  /** The length of the buffer R: d rounded up to whole blocks. */
  function RLen(d: nat): (r: nat)
    ensures r % 16 == 0 && d <= r < d + 16
  {
    ((d + 15) / 16) * 16
  }

  /** The length of Q: the tweak, the round byte and the b numeral bytes,
      padded with zero bytes to the next whole block. */
  function QLen(t: nat, b: nat): (q: nat)
    ensures q % 16 == 0 && t + b + 1 <= q < t + b + 1 + 16
  {
    ((t + b + 1 + 15) / 16) * 16
  }

  /** The header block P = [1, 2, 1] [radix]^3 [10] [u mod 256] [n]^4 [t]^4. */
  function Header(radix: nat, u: nat, n: nat, t: nat): (p: seq<byte>)
    ensures |p| == 16
  {
    HeaderLayout(BeBytes(radix, 3), (u % 256) as byte, BeBytes(n, 4), BeBytes(t, 4))
  }

  /** The sixteen header bytes around the three integer fields. */
  function HeaderLayout(rad: seq<byte>, ub: byte, len: seq<byte>, tl: seq<byte>): (h: seq<byte>)
    requires |rad| == 3 && |len| == 4 && |tl| == 4
    ensures |h| == 16
    ensures h[0] == 1 && h[1] == 2 && h[2] == 1 && h[6] == 10 && h[7] == ub
    ensures h[3..6] == rad && h[8..12] == len && h[12..16] == tl
  {
    [1, 2, 1] + rad + [10, ub] + len + tl
  }

  /** The fields of P: the constant bytes 1, 2, 1 and 10, the radix in
      three bytes, u in one and n and t in four, each big-endian and
      truncated to its width as the byte casts truncate. */
  lemma HeaderFields(radix: nat, u: nat, n: nat, t: nat)
    ensures var p := Header(radix, u, n, t);
      && p[0] == 1 && p[1] == 2 && p[2] == 1 && p[6] == 10
      && BeValue(p[3..6]) == radix % Pow(256, 3)
      && p[7] as nat == u % 256
      && BeValue(p[8..12]) == n % Pow(256, 4)
      && BeValue(p[12..16]) == t % Pow(256, 4)
  {
    BeBytesValue(radix, 3);
    BeBytesValue(n, 4);
    BeBytesValue(t, 4);
  }

  /** P || Q for one round: the header, the tweak, zero padding, the round
      byte and NUM(B) packed into b bytes. */
  function RoundInput(s: Setup, rb: nat, B: string): (pq: seq<byte>)
    requires WellFormed(s) && rb < 256 && IsNumeral(B, s.radix)
    ensures |pq| % 16 == 0
  {
    var b := NumBytes(s.radix, V(s.n));
    Assemble(Header(s.radix, U(s.n), s.n, |s.twk|), s.twk, rb as byte, Pack(Num(B, s.radix), b))
  }

  /** P || Q from its parts, with Q padded to whole blocks. */
  function Assemble(p: seq<byte>, twk: seq<byte>, rb: byte, num: seq<byte>): (pq: seq<byte>)
    requires |p| == 16
    ensures |pq| == 16 + QLen(|twk|, |num|) && |pq| % 16 == 0
  {
    var t, b := |twk|, |num|;
    var q := QLen(t, b);
    var pq := InputLayout(p, twk, q - (t + b + 1), rb, num);
    NextBlock(q);
    pq
  }

  lemma NextBlock(q: nat)
    requires q % 16 == 0
    ensures (16 + q) % 16 == 0
  {
    DivModUnique(16 + q, 16, q / 16 + 1, 0);
  }

  /** P, then T, then zeros, then the round byte, then the numeral bytes. */
  function InputLayout(p: seq<byte>, twk: seq<byte>, pad: nat, rb: byte, num: seq<byte>)
    : (pq: seq<byte>)
    requires |p| == 16
    ensures |pq| == 16 + |twk| + pad + 1 + |num|
    ensures pq[..16] == p && pq[16..16 + |twk|] == twk
    ensures forall k :: 16 + |twk| <= k < |pq| - |num| - 1 ==> pq[k] == 0
    ensures pq[|pq| - |num| - 1] == rb && pq[|pq| - |num|..] == num
  {
    var z := Zeros(pad);
    var pq := p + twk + z + [rb] + num;
    assert forall k :: 16 + |twk| <= k < |pq| - |num| - 1 ==> pq[k] == z[k - 16 - |twk|];
    pq
  }

  /** Where each part of P || Q lies: P in the first block, the tweak right
      after it, zeros up to the round byte, and the last b bytes holding
      NUM(B) as the byte array export packs it. */
  lemma RoundInputLayout(s: Setup, rb: nat, B: string)
    requires WellFormed(s) && rb < 256 && IsNumeral(B, s.radix)
    ensures var pq := RoundInput(s, rb, B);
      var b := NumBytes(s.radix, V(s.n));
      && |pq| == 16 + QLen(|s.twk|, b)
      && pq[..16] == Header(s.radix, U(s.n), s.n, |s.twk|)
      && pq[16..16 + |s.twk|] == s.twk
      && (forall k :: 16 + |s.twk| <= k < |pq| - b - 1 ==> pq[k] == 0)
      && pq[|pq| - b - 1] as nat == rb
      && pq[|pq| - b..] == Pack(Num(B, s.radix), b)
  {
  }

  /** The width of the counter field at the end of [j]^16. */
  const CounterWidth: nat := 4

  /** The counter block [j]^16: twelve zero bytes and j in four bytes. */
  function Counter(j: nat): (c: seq<byte>)
    ensures |c| == 16
  {
    Zeros(16 - CounterWidth) + BeBytes(j, CounterWidth)
  }

  /** The counter block read as a 128-bit big-endian integer is j (mod
      2^32, the width of the four bytes). */
  lemma CounterValue(j: nat)
    ensures BeValue(Counter(j)) == j % Pow(256, 4)
  {
    BeValueLeadingZeros(16 - CounterWidth, BeBytes(j, CounterWidth));
    BeBytesValue(j, CounterWidth);
  }

  /** The blocks that follow R in S, by block number. */
  type Blocks = nat -> Block

  /** Block j of S for j >= 1: CIPH(R xor [j]^16). */
  function Masks(aes: Aes, key: seq<byte>, r0: Block): Blocks
  {
    j => aes(key, Xor(r0, Counter(j)))
  }

  /** S = R || f(1) || ... || f(k-1): k blocks, with f = Masks(aes, key, R)
      in the cipher. */
  function Expand(f: Blocks, r0: Block, k: nat): (s: seq<byte>)
    requires k >= 1
    ensures |s| == 16 * k && s[..16] == r0
    decreases k
  {
    if k == 1 then r0 else Expand(f, r0, k - 1) + f(k - 1)
  }

  /** Block j of S (j >= 1) is f(j): AES of the first block masked with
      [j]^16. */
  lemma {:induction false} ExpandBlocks(f: Blocks, r0: Block, k: nat, j: nat)
    requires 1 <= j < k
    ensures Expand(f, r0, k)[16 * j..16 * j + 16] == f(j)
    decreases k
  {
    var prev := Expand(f, r0, k - 1);
    assert Expand(f, r0, k) == prev + f(k - 1);
    if j < k - 1 {
      ExpandBlocks(f, r0, k - 1, j);
      assert 16 * j + 16 <= 16 * (k - 1);
      SliceOfPrefix(prev, f(k - 1), 16 * j, 16 * j + 16);
    } else {
      SliceOfSuffix(prev, f(k - 1));
    }
  }

  lemma SliceOfPrefix<T>(a: seq<T>, b: seq<T>, lo: nat, hi: nat)
    requires lo <= hi <= |a|
    ensures (a + b)[lo..hi] == a[lo..hi]
  {
  }

  lemma SliceOfSuffix<T>(a: seq<T>, b: seq<T>)
    ensures (a + b)[|a|..|a| + |b|] == b
  {
  }

  /** One pass of the counter loop: block j of R is overwritten with
      CIPH(R[0..16] xor [j]^16) and nothing before it changes. */
  method ExpandStep(aes: Aes, key: seq<byte>, R0: seq<byte>, j: nat) returns (R: seq<byte>)
    requires 1 <= j && 16 * j + 16 <= |R0| && |R0| % 16 == 0
    ensures |R| == |R0| && R[..16 * j] == R0[..16 * j]
    ensures R[16 * j..16 * j + 16] == aes(key, Xor(R0[..16], Counter(j)))
  {
    var l := 16 * j;
    var R2 := Masked(R0, j);
    var q := |R0| / 16;
    assert |R2| - l == 16 * (q - j);
    DivModUnique(|R2| - l, 16, q - j, 0);
    var blk := Ciph(aes, key, R2[l..l + 16], R2, l);
    R := Splice(R2, l, blk.value);
  }

  /** The buffer with block j replaced by [j]^16 and then xored with the
      first block, as the fill, the four byte stores and `xor` leave it. */
  function Masked(R0: seq<byte>, j: nat): (R2: seq<byte>)
    requires 1 <= j && 16 * j + 16 <= |R0|
    ensures |R2| == |R0| && R2[..16 * j] == R0[..16 * j]
    ensures R2[16 * j..16 * j + 16] == Xor(R0[..16], Counter(j))
  {
    var l := 16 * j;
    var R1 := Splice(R0, l, Counter(j));
    var R2 := XorInto(R1, l, R1, 0, R1, l, 16);
    MaskedBlock(R0, R1, R2, j);
    R2
  }

  lemma MaskedBlock(R0: seq<byte>, R1: seq<byte>, R2: seq<byte>, j: nat)
    requires 1 <= j && 16 * j + 16 <= |R0| == |R1|
    requires R1[..16 * j] == R0[..16 * j] && R1[16 * j..16 * j + 16] == Counter(j)
    requires |R2| == |R1| && R2[16 * j..16 * j + 16] == Xor(R1[0..16], R1[16 * j..16 * j + 16])
    ensures R2[16 * j..16 * j + 16] == Xor(R0[..16], Counter(j))
  {
    assert R1[0..16] == R1[..16 * j][..16] == R0[..16 * j][..16] == R0[..16];
  }

  /** The counter loop that fills R after its first block, in place:
      zero twelve bytes, write the counter, xor with the first block,
      encrypt the block where it lies.  It computes S. */
  method ExpandInPlace(aes: Aes, key: seq<byte>, R0: seq<byte>) returns (R: seq<byte>)
    requires |R0| >= 16 && |R0| % 16 == 0
    ensures R == Expand(Masks(aes, key, R0[..16]), R0[..16], |R0| / 16)
  {
    var r0: Block := R0[..16];
    var f := Masks(aes, key, r0);
    var k := |R0| / 16;
    DivModUnique(|R0|, 16, k, 0) by {
      assert |R0| == 16 * k + |R0| % 16;
    }
    R := R0;
    var j := 1;
    while j < k
      invariant 1 <= j <= k && |R| == 16 * k
      invariant R[..16 * j] == Expand(f, r0, j)
      decreases k - j
    {
      var R' := ExpandStep(aes, key, R, j);
      ExpandGrows(aes, key, r0, R, R', j);
      R := R';
      j := j + 1;
    }
    assert R == R[..16 * k];
  }

  /** The loop invariant carried over one pass of the counter loop. */
  lemma ExpandGrows(aes: Aes, key: seq<byte>, r0: Block, R: seq<byte>, R': seq<byte>, j: nat)
    requires 1 <= j && 16 * j + 16 <= |R| == |R'|
    requires R[..16 * j] == Expand(Masks(aes, key, r0), r0, j)
    requires R'[..16 * j] == R[..16 * j]
    requires R'[16 * j..16 * j + 16] == aes(key, Xor(R[..16], Counter(j)))
    ensures R'[..16 * (j + 1)] == Expand(Masks(aes, key, r0), r0, j + 1)
  {
    var f := Masks(aes, key, r0);
    var l := 16 * j;
    assert R[..16] == R[..l][..16] == r0;
    ExpandAppend(f, r0, R', j);
  }

  /** A buffer whose first j blocks are S for j blocks and whose block j is
      f(j) starts with S for j + 1 blocks. */
  lemma ExpandAppend(f: Blocks, r0: Block, R: seq<byte>, j: nat)
    requires 1 <= j && 16 * j + 16 <= |R|
    requires R[..16 * j] == Expand(f, r0, j) && R[16 * j..16 * j + 16] == f(j)
    ensures R[..16 * (j + 1)] == Expand(f, r0, j + 1)
  {
    var l := 16 * j;
    assert Expand(f, r0, j + 1) == Expand(f, r0, j) + f(j);
    assert 16 * (j + 1) == l + 16;
    assert R[..l + 16] == R[..l] + R[l..l + 16];
  }

  /** y: the first d bytes of S read as a BigInteger (two's complement) and
      reduced mod 2^(8d), which is their unsigned big-endian value. */
  function YValue(s: seq<byte>, d: nat): (y: nat)
    requires d <= |s|
    ensures y == BeValue(s[..d])
  {
    UnsignedOfSigned(s[..d]);
    SignedBe(s[..d]) % Pow(2, 8 * d)
  }

  /** The round function: y from the round byte and the half B, less than
      2^(8d). */
  function RoundY(s: Setup, rb: nat, B: string): (y: nat)
    requires WellFormed(s) && rb < 256 && IsNumeral(B, s.radix)
    ensures y < Pow(256, D(NumBytes(s.radix, V(s.n))))
  {
    var d := D(NumBytes(s.radix, V(s.n)));
    var pq := RoundInput(s, rb, B);
    var r0 := CbcMac(s.aes, s.key, pq);
    var S := Expand(Masks(s.aes, s.key, r0), r0, RLen(d) / 16);
    BeValueBound(S[..d]);
    YValue(S, d)
  }

  /** A round function: from the round byte and the half B to y. */
  type RoundFn = (nat, string) -> nat

  /** RoundY of a cipher call as a round function (zero outside its domain,
      where no round applies it). */
  function Rf(s: Setup): RoundFn
  {
    (rb: nat, B: string) =>
      if WellFormed(s) && rb < 256 && IsNumeral(B, s.radix) then RoundY(s, rb, B) else 0
  }

  /** FF1's new half: the m-digit numeral of NUM(A) + y (encrypting) or
      NUM(A) - y (decrypting) modulo radix^m (A left as it is where no
      round applies). */
  function Half(radix: nat): Halves.HalfFn
  {
    (m: nat, A: string, y: int, enc: bool) =>
      if 2 <= radix <= 36 && m >= 1 && IsNumeral(A, radix) then Update(radix, m, A, y, enc) else A
  }

  /** The new half keeps an m-digit numeral one, and the new half of the
      other direction with the same y gives it back. */
  lemma HalfUndoable(radix: nat)
    requires 2 <= radix <= 36
    ensures Halves.Undoable(radix, Half(radix))
  {
    forall m: nat, A: string, y: int, enc: bool | m >= 1 && |A| == m && IsNumeral(A, radix)
      ensures Halves.Fits(radix, Half(radix), m, A, y, enc)
      ensures Halves.Back(Half(radix), m, A, y, enc) == A
    {
      UpdateUndone(radix, m, A, y, enc);
    }
  }

  /** y of round i: the round function on the round byte and B (zero past
      the last round). */
  function Ys(F: RoundFn): Halves.YFn
  {
    (enc: bool, i: nat, B: string) => if i < Rounds then F(Halves.RoundNumber(Rounds, enc, i), B) else 0
  }

  /** Round i and round 9 - i of the other direction use the same round
      byte, so they compute the same y from the same half. */
  lemma YsMirrored(F: RoundFn)
    ensures Halves.Mirrored(Ys(F), Rounds)
  {
    forall enc: bool, i: nat, B: string | i < Rounds
      ensures Halves.Partner(Ys(F), Rounds, enc, i, B) == Ys(F)(enc, i, B)
    {
      assert Halves.RoundNumber(Rounds, !enc, Rounds - 1 - i) == Halves.RoundNumber(Rounds, enc, i);
    }
  }

  /** Round i of FF1: (A, B) becomes (B, C) with C the m-digit numeral of
      NUM(A) + y (encrypting) or NUM(A) - y (decrypting) modulo radix^m,
      y being the round function on the round byte and B. */
  lemma RoundValue(radix: nat, n: nat, F: RoundFn, enc: bool, i: nat, A: string, B: string)
    requires 2 <= radix <= 36 && n >= 2 && i < Rounds && IsNumeral(A, radix)
    ensures var r := Halves.Round(Halving(n), Half(radix), Ys(F), enc, i, (A, B));
      && r.0 == B && |r.1| == Halves.M(Halving(n), enc, i) && IsNumeral(r.1, radix)
      && Num(r.1, radix) == UpdateValue(radix, Halves.M(Halving(n), enc, i), Num(A, radix), F(Halves.RoundNumber(Rounds, enc, i), B), enc)
  {
  }

  /** FF1.cipher: pick the tweak, check the text and tweak lengths, split
      X, run the ten rounds and join the halves. */
  function Cipher(aes: Aes, ctx: Ffx.Context, X: string, twk: Option<seq<byte>>, enc: bool)
    : (r: Result<string>)
    requires Ffx.Usable(ctx)
    ensures var t := Ffx.CallTweak(ctx, twk);
      r.Ok? <==> Ffx.CheckCall(ctx, |X|, t) == None && IsNumeral(X, ctx.radix)
    ensures var t := Ffx.CallTweak(ctx, twk);
      Ffx.CheckCall(ctx, |X|, t).Some? ==> r == Err(Ffx.CheckCall(ctx, |X|, t).value)
    ensures Ffx.CheckCall(ctx, |X|, Ffx.CallTweak(ctx, twk)) == None && !IsNumeral(X, ctx.radix) ==>
              r == Err(NumberFormat)
    ensures r.Err? ==> r.error in {TextLength, TweakLength, NumberFormat}
    ensures r.Ok? ==> |r.value| == |X| && IsNumeral(r.value, ctx.radix)
  {
    var t := Ffx.CallTweak(ctx, twk);
    var chk := Ffx.CheckCall(ctx, |X|, t);
    if chk.Some? then Err(chk.value)
    else if !IsNumeral(X, ctx.radix) then Err(NumberFormat)
    else
      var n, F := |X|, Rf(Setup(aes, ctx.key, ctx.radix, |X|, t));
      HalfUndoable(ctx.radix);
      Ok(Halves.Run(ctx.radix, Halving(n), Rounds, Half(ctx.radix), Ys(F), enc, X))
  }

  function Encrypt(aes: Aes, ctx: Ffx.Context, X: string, twk: Option<seq<byte>>): (r: Result<string>)
    requires Ffx.Usable(ctx)
    ensures r.Ok? <==> Ffx.CheckCall(ctx, |X|, Ffx.CallTweak(ctx, twk)) == None && IsNumeral(X, ctx.radix)
    ensures r.Ok? ==> |r.value| == |X| && IsNumeral(r.value, ctx.radix)
  {
    Cipher(aes, ctx, X, twk, true)
  }

  function Decrypt(aes: Aes, ctx: Ffx.Context, X: string, twk: Option<seq<byte>>): (r: Result<string>)
    requires Ffx.Usable(ctx)
    ensures r.Ok? <==> Ffx.CheckCall(ctx, |X|, Ffx.CallTweak(ctx, twk)) == None && IsNumeral(X, ctx.radix)
    ensures r.Ok? ==> |r.value| == |X| && IsNumeral(r.value, ctx.radix)
  {
    Cipher(aes, ctx, X, twk, false)
  }

  /** On a text that passes the checks, cipher in one direction succeeds,
      and cipher in the other direction gives back the text. */
  lemma CipherInverse(aes: Aes, ctx: Ffx.Context, X: string, twk: Option<seq<byte>>, enc: bool)
    requires Ffx.Usable(ctx)
    requires Ffx.CheckCall(ctx, |X|, Ffx.CallTweak(ctx, twk)) == None && IsNumeral(X, ctx.radix)
    ensures var r := Cipher(aes, ctx, X, twk, enc);
      r.Ok? && Cipher(aes, ctx, r.value, twk, !enc) == Ok(X)
  {
    var t := Ffx.CallTweak(ctx, twk);
    var n, F := |X|, Rf(Setup(aes, ctx.key, ctx.radix, |X|, t));
    HalfUndoable(ctx.radix);
    YsMirrored(F);
    Halves.RunInverse(ctx.radix, Halving(n), Rounds, Half(ctx.radix), Ys(F), enc, X);
  }

  /** Decryption undoes encryption under the same key and tweak, for
      every text encryption accepts. */
  lemma DecryptEncrypt(aes: Aes, ctx: Ffx.Context, X: string, twk: Option<seq<byte>>)
    requires Ffx.Usable(ctx)
    requires Ffx.CheckCall(ctx, |X|, Ffx.CallTweak(ctx, twk)) == None && IsNumeral(X, ctx.radix)
    ensures var c := Encrypt(aes, ctx, X, twk);
      c.Ok? && Decrypt(aes, ctx, c.value, twk) == Ok(X)
  {
    CipherInverse(aes, ctx, X, twk, true);
  }

  /** Encryption undoes decryption under the same key and tweak, for
      every text decryption accepts. */
  lemma EncryptDecrypt(aes: Aes, ctx: Ffx.Context, X: string, twk: Option<seq<byte>>)
    requires Ffx.Usable(ctx)
    requires Ffx.CheckCall(ctx, |X|, Ffx.CallTweak(ctx, twk)) == None && IsNumeral(X, ctx.radix)
    ensures var p := Decrypt(aes, ctx, X, twk);
      p.Ok? && Encrypt(aes, ctx, p.value, twk) == Ok(X)
  {
    CipherInverse(aes, ctx, X, twk, false);
  }
}

=== FILE: ff3_1.dfy ===
/** FF3-1 (NIST SP 800-38G Rev. 1, algorithms 9 and 10) as the library's
    `FF3_1` class computes it: an eight-round Feistel network on a numeral
    string whose halves are read and written reversed, and whose round
    function is one AES call, under the byte-reversed key, on a block made
    of a tweak half, the round number and the packed value of the
    reversed half B, the block being byte-reversed before and after AES. */
module Ff31 {
  import opened Wrappers
  import opened Arith
  import opened Bytes
  import opened Numeral
  import opened BlockFn
  import Ffx
  import Feistel
  import Halves

  const Rounds: nat := 8

  /** FF3-1 takes tweaks of exactly seven bytes (56 bits). */
  const TweakLen: nat := 7

  /** The width of the field that holds NUM(REV(B)) in the round block. */
  const NumWidth: nat := 12

  /** The exponent in the text length bound 192 / log2(radix). */
  const MaxBits: nat := 192

  /** txtmax = floor(192 / log2(radix)), computed without floating point:
      the largest n with radix^n <= 2^192. */
  function TxtMax(radix: nat): (n: nat)
    requires radix >= 2
    ensures Pow(radix, n) <= Pow(2, MaxBits) < Pow(radix, n + 1)
  {
    FloorLog(radix, Pow(2, MaxBits))
  }

  /** The standard's bound 2 * floor(log_radix(2^96)). */
  function StandardMaxLen(radix: nat): (n: nat)
    requires radix >= 2
    ensures n % 2 == 0 && Pow(radix, n / 2) <= Pow(2, MaxBits / 2) < Pow(radix, n / 2 + 1)
  {
    2 * FloorLog(radix, Pow(2, MaxBits / 2))
  }

  /** txtmax never falls below the standard's bound (the floor of twice a
      logarithm is at least twice its floor). */
  lemma TxtMaxAtLeastStandard(radix: nat)
    requires radix >= 2
    ensures StandardMaxLen(radix) <= TxtMax(radix)
  {
    FloorLogPowSquare(radix, 2, MaxBits / 2);
  }

  /** For decimal text the bound is 57 where the standard's is 56: with
      n = 57 the longer half has 29 digits and 10^29 > 2^96. */
  lemma TxtMaxDecimal()
    ensures TxtMax(10) == 57 && StandardMaxLen(10) == 56
  {
    TwoPowers();
    TenPowers();
    FloorLogUnique(10, Pow(2, 192), 57);
    FloorLogUnique(10, Pow(2, 96), 28);
  }

  lemma TwoPowers()
    ensures Pow(2, 96) == 79228162514264337593543950336
    ensures Pow(2, 192) == 6277101735386680763835789423207666416102355444464034512896
  {
    var p12 := Pow(2, 12);
    assert p12 == 4096;
    PowAdd(2, 12, 12);
    var p24 := Pow(2, 24);
    assert p24 == 16777216;
    PowAdd(2, 24, 24);
    var p48 := Pow(2, 48);
    assert p48 == 281474976710656;
    PowAdd(2, 48, 48);
    var p96 := Pow(2, 96);
    assert p96 == 79228162514264337593543950336;
    PowAdd(2, 96, 96);
  }

  lemma TenPowers()
    ensures Pow(10, 28) == 10000000000000000000000000000
    ensures Pow(10, 29) == 100000000000000000000000000000
    ensures Pow(10, 57) == 1000000000000000000000000000000000000000000000000000000000
    ensures Pow(10, 58) == 10000000000000000000000000000000000000000000000000000000000
  {
    assert Pow(10, 14) == 100000000000000;
    assert Pow(10, 1) == 10;
    PowAdd(10, 14, 14);
    PowAdd(10, 28, 1);
    PowAdd(10, 28, 29);
    PowAdd(10, 57, 1);
  }

  /** txtmin never exceeds txtmax for the radices the library accepts:
      36^20 < 64^20 = 2^120 <= 2^192. */
  lemma TxtMinFits(radix: nat)
    requires 2 <= radix <= 36
    ensures 2 <= Ffx.TxtMin(radix) <= 20 <= TxtMax(radix)
  {
    Ffx.TxtMinRange(radix);
    PowLeBase(radix, 64, 20);
    assert Pow(2, 6) == 64;
    PowMul(2, 6, 20);
    PowMonotone(2, 120, MaxBits);
    FloorLogGreatest(radix, Pow(2, MaxBits), 20);
  }

  /** What a context built by New satisfies: a valid FFX context whose
      tweaks are exactly seven bytes long. */
  predicate Valid(ctx: Ffx.Context)
  {
    Ffx.Valid(ctx) && Usable(ctx)
  }

  /** What an FF3-1 cipher call relies on: a usable FFX context whose
      tweaks are exactly seven bytes long. */
  predicate Usable(ctx: Ffx.Context)
  {
    Ffx.Usable(ctx) && ctx.twkmin == TweakLen && ctx.twkmax == TweakLen
  }

  /** The FF3-1 constructor: an FFX context with the byte-reversed key,
      tweak length bounds 7 and 7 and txtmax from the radix.  (Outside
      2..36 the bound does not matter: the radix check fails first.) */
  function New(key: seq<byte>, twk: Option<seq<byte>>, radix: int): (r: Result<Ffx.Context>)
    ensures r.Ok? <==> Ffx.KeySizeOk(key) && 2 <= radix <= 36 && twk.Some? && |twk.value| == TweakLen
    ensures !Ffx.KeySizeOk(key) ==> r == Err(KeySize)
    ensures Ffx.KeySizeOk(key) && !(2 <= radix <= 36) ==> r == Err(Radix)
    ensures Ffx.KeySizeOk(key) && 2 <= radix <= 36 && twk.None? ==> r == Err(NullTweak)
    ensures Ffx.KeySizeOk(key) && 2 <= radix <= 36 && twk.Some? && |twk.value| != TweakLen ==>
              r == Err(TweakLength)
    ensures r.Err? ==> r.error in {KeySize, Radix, NullTweak, TweakLength}
    ensures r.Ok? ==> Valid(r.value) && r.value.radix == radix && r.value.twk == twk.value
    ensures r.Ok? ==> r.value.key == Rev(key) && Rev(r.value.key) == key
    ensures r.Ok? ==> r.value.txtmax == TxtMax(radix)
  {
    RevInvolution(key);
    if 2 <= radix <= 36 then
      TxtMinFits(radix);
      Ffx.New(Rev(key), twk, TxtMax(radix), TweakLen, TweakLen, radix)
    else
      Ffx.New(Rev(key), twk, 0, TweakLen, TweakLen, radix)
  }

  /** Everything one cipher call fixes for its rounds: the block function,
      the (reversed) key, the radix and the tweak in use. */
  datatype Setup = Setup(aes: Aes, key: seq<byte>, radix: nat, twk: seq<byte>)

  predicate WellFormed(s: Setup)
  {
    2 <= s.radix <= 36 && |s.twk| == TweakLen
  }

  /** The lengths of the halves: v = floor(n/2) and u = n - v, so that the
      first half is the longer one. */
  function U(n: nat): nat { n - n / 2 }
  function V(n: nat): nat { n / 2 }

  /** FF3-1 cuts the text after its first u characters. */
  function Halving(n: nat): Halves.Cut
  {
    Halves.Cut(U(n), V(n))
  }

  /** T[3] & 0xF0: the high nibble of a byte, left in place. */
  function HighNibble(b: byte): (h: byte)
    ensures h as nat % 16 == 0 && h <= b && b as nat - h as nat < 16
  {
    (b as nat / 16 * 16) as byte
  }

  /** (T[3] & 0x0F) << 4: the low nibble of a byte, moved up. */
  function LowNibbleUp(b: byte): (l: byte)
    ensures l as nat % 16 == 0 && l as nat / 16 == b as nat % 16
  {
    (b as nat % 16 * 16) as byte
  }

  /** The tweak halves Tw[0] = T[0..3) || T[3] & 0xF0 and
      Tw[1] = T[4..7) || (T[3] & 0x0F) << 4: 28 bits each, the low nibble
      of each fourth byte left zero. */
  function TweakHalves(T: seq<byte>): (tw: (seq<byte>, seq<byte>))
    requires |T| == TweakLen
    ensures |tw.0| == 4 && |tw.1| == 4
    ensures tw.0[3] as nat % 16 == 0 && tw.1[3] as nat % 16 == 0
  {
    (T[..3] + [HighNibble(T[3])], T[4..7] + [LowNibbleUp(T[3])])
  }

  /** The halves keep all 56 bits of the tweak: T is rebuilt from them. */
  lemma TweakHalvesKeepAll(T: seq<byte>)
    requires |T| == TweakLen
    ensures var tw := TweakHalves(T);
      T == tw.0[..3] + [(tw.0[3] as nat + tw.1[3] as nat / 16) as byte] + tw.1[..3]
  {
    var tw := TweakHalves(T);
    assert tw.0[..3] == T[..3] && tw.1[..3] == T[4..7];
    assert tw.0[3] as nat + tw.1[3] as nat / 16 == T[3] as nat;
    assert T == T[..3] + [T[3]] + T[4..7];
  }

  /** The index of the tweak half round i uses: Tw[1] on even rounds when
      encrypting, on odd rounds when decrypting. */
  function TwIndex(enc: bool, i: nat): (w: nat)
    ensures w < 2
  {
    (i + (if enc then 1 else 0)) % 2
  }

  /** The round block P = W[0..3) || W[3] ^ rb || NUM(REV(B)) packed into
      twelve bytes. */
  function RoundBlock(W: seq<byte>, rb: nat, c: nat): (P: Block)
    requires |W| == 4 && rb < 256
  {
    W[..3] + [XorByte(W[3], rb as byte)] + Pack(c, NumWidth)
  }

  /** As long as NUM(REV(B)) < 2^95 the block is the standard's
      P = W xor [i]^4 || [NUM(REV(B))]^12. */
  lemma RoundBlockStandard(W: seq<byte>, rb: nat, c: nat)
    requires |W| == 4 && rb < 256 && c < 128 * Pow(256, NumWidth - 1)
    ensures RoundBlock(W, rb, c) == Xor(W, BeBytes(rb, 4)) + BeBytes(c, NumWidth)
  {
    PackIsBigEndian(c, NumWidth);
    XorRoundNumber(W, rb);
  }

  /** W xor [rb]^4 changes only the last byte of W, rb being below 256. */
  lemma XorRoundNumber(W: seq<byte>, rb: nat)
    requires |W| == 4 && rb < 256
    ensures Xor(W, BeBytes(rb, 4)) == W[..3] + [XorByte(W[3], rb as byte)]
  {
    var r := BeBytes(rb, 4);
    BeBytesWiden(rb, 1, 4);
    assert BeBytes(rb, 1) == BeBytes(rb / 256, 0) + [(rb % 256) as byte];
    assert r == Zeros(3) + [rb as byte];
    var x := Xor(W, r);
    forall k | 0 <= k < 3
      ensures x[k] == W[k]
    {
      XorByteZeroRight(W[k]);
    }
  }

  /** A reversed numeral is a numeral. */
  lemma RevNumeral(s: string, radix: nat)
    requires IsNumeral(s, radix)
    ensures IsNumeral(Rev(s), radix) && |Rev(s)| == |s|
  {
    RevIndex(s);
  }

  /** y of a round: REVB(CIPH(REVB(P))) read as a signed big-endian
      integer and reduced mod 2^128, which is its unsigned value. */
  function RoundY(s: Setup, w: nat, rb: nat, B: string): (y: nat)
    requires WellFormed(s) && w < 2 && rb < 256 && IsNumeral(B, s.radix)
    ensures IsNumeral(Rev(B), s.radix)
    ensures var tw := TweakHalves(s.twk);
      var P := RoundBlock(if w == 0 then tw.0 else tw.1, rb, Num(Rev(B), s.radix));
      y == BeValue(Rev(s.aes(s.key, Rev(P))))
  {
    var tw := TweakHalves(s.twk);
    RevNumeral(B, s.radix);
    var P := RoundBlock(if w == 0 then tw.0 else tw.1, rb, Num(Rev(B), s.radix));
    var S := Rev(s.aes(s.key, Rev(P)));
    UnsignedOfSigned(S);
    BeValueBound(S);
    SignedBe(S) % Pow(2, 8 * |S|)
  }

  /** A round function: from the tweak half index, the round number and
      the half B to y. */
  type RoundFn = (nat, nat, string) -> nat

  /** RoundY of a cipher call as a round function (zero outside its
      domain, where no round applies it). */
  function Rf(s: Setup): RoundFn
  {
    (w: nat, rb: nat, B: string) =>
      if WellFormed(s) && w < 2 && rb < 256 && IsNumeral(B, s.radix) then RoundY(s, w, rb, B) else 0
  }

  /** FF3-1's new half C = REV(STR_m(c)), c = NUM(REV(A)) + y (encrypting)
      or NUM(REV(A)) - y (decrypting) modulo radix^m: the FF1 update of the
      reversed half, reversed back. */
  function NewHalf(radix: nat, m: nat, A: string, y: int, enc: bool): (C: string)
    requires 2 <= radix <= 36 && m >= 1 && IsNumeral(A, radix)
    ensures |C| == m && IsNumeral(C, radix)
  {
    RevNumeral(A, radix);
    var U := Update(radix, m, Rev(A), y, enc);
    RevNumeral(U, radix);
    Rev(U)
  }

  /** The value of the new half: NUM(REV(C)) is NUM(REV(A)) + y
      (encrypting) or NUM(REV(A)) - y (decrypting) modulo radix^m. */
  lemma NewHalfValue(radix: nat, m: nat, A: string, y: int, enc: bool)
    requires 2 <= radix <= 36 && m >= 1 && IsNumeral(A, radix)
    ensures IsNumeral(Rev(A), radix) && IsNumeral(Rev(NewHalf(radix, m, A, y, enc)), radix)
    ensures Num(Rev(NewHalf(radix, m, A, y, enc)), radix) == UpdateValue(radix, m, Num(Rev(A), radix), y, enc)
  {
    RevNumeral(A, radix);
    var U := Update(radix, m, Rev(A), y, enc);
    RevInvolution(U);
    assert Rev(NewHalf(radix, m, A, y, enc)) == U;
  }

  /** The new half of the other direction, with the same y, gives back an
      m-digit A. */
  lemma NewHalfInverse(radix: nat, m: nat, A: string, y: int, enc: bool)
    requires 2 <= radix <= 36 && IsNumeral(A, radix) && |A| == m >= 1
    ensures NewHalf(radix, m, NewHalf(radix, m, A, y, enc), y, !enc) == A
  {
    RevNumeral(A, radix);
    var U := Update(radix, m, Rev(A), y, enc);
    RevInvolution(U);
    UpdateUndone(radix, m, Rev(A), y, enc);
    RevInvolution(A);
  }

  /** NewHalf for a radix, leaving A as it is where no round applies. */
  function Half(radix: nat): Halves.HalfFn
  {
    (m: nat, A: string, y: int, enc: bool) =>
      if 2 <= radix <= 36 && m >= 1 && IsNumeral(A, radix) then NewHalf(radix, m, A, y, enc) else A
  }

  /** The new half keeps an m-digit numeral one, and the new half of the
      other direction with the same y gives it back. */
  lemma HalfUndoable(radix: nat)
    requires 2 <= radix <= 36
    ensures Halves.Undoable(radix, Half(radix))
  {
    forall m: nat, A: string, y: int, enc: bool | m >= 1 && |A| == m && IsNumeral(A, radix)
      ensures Halves.Fits(radix, Half(radix), m, A, y, enc)
      ensures Halves.Back(Half(radix), m, A, y, enc) == A
    {
      NewHalfInverse(radix, m, A, y, enc);
    }
  }

  /** y of round i: the round function on the tweak half, the round number
      and B (zero past the last round). */
  function Ys(F: RoundFn): Halves.YFn
  {
    (enc: bool, i: nat, B: string) => if i < Rounds then F(TwIndex(enc, i), Halves.RoundNumber(Rounds, enc, i), B) else 0
  }

  /** Round i and round 7 - i of the other direction use the same tweak
      half and round number, so they compute the same y from the same
      half. */
  lemma YsMirrored(F: RoundFn)
    ensures Halves.Mirrored(Ys(F), Rounds)
  {
    forall enc: bool, i: nat, B: string | i < Rounds
      ensures Halves.Partner(Ys(F), Rounds, enc, i, B) == Ys(F)(enc, i, B)
    {
      assert TwIndex(!enc, Rounds - 1 - i) == TwIndex(enc, i);
      assert Halves.RoundNumber(Rounds, !enc, Rounds - 1 - i) == Halves.RoundNumber(Rounds, enc, i);
    }
  }

  /** Round i of FF3-1: (A, B) becomes (B, C) with NUM(REV(C)) equal to
      NUM(REV(A)) + y (encrypting) or NUM(REV(A)) - y (decrypting) modulo
      radix^m, y being the round function on the tweak half, the round
      number and B. */
  lemma RoundValue(radix: nat, n: nat, F: RoundFn, enc: bool, i: nat, A: string, B: string)
    requires 2 <= radix <= 36 && n >= 2 && i < Rounds && IsNumeral(A, radix)
    ensures var r := Halves.Round(Halving(n), Half(radix), Ys(F), enc, i, (A, B));
      r.0 == B && |r.1| == Halves.M(Halving(n), enc, i)
      && IsNumeral(Rev(A), radix) && IsNumeral(Rev(r.1), radix)
    ensures var r := Halves.Round(Halving(n), Half(radix), Ys(F), enc, i, (A, B));
      Num(Rev(r.1), radix)
        == UpdateValue(radix, Halves.M(Halving(n), enc, i), Num(Rev(A), radix), F(TwIndex(enc, i), Halves.RoundNumber(Rounds, enc, i), B), enc)
  {
    var m := Halves.M(Halving(n), enc, i);
    var y := F(TwIndex(enc, i), Halves.RoundNumber(Rounds, enc, i), B);
    NewHalfValue(radix, m, A, y, enc);
  }

  /** FF3_1.cipher: pick the tweak, check the text and tweak lengths,
      split X, run the eight rounds and join the halves. */
  function Cipher(aes: Aes, ctx: Ffx.Context, X: string, twk: Option<seq<byte>>, enc: bool)
    : (r: Result<string>)
    requires Usable(ctx)
    ensures var t := Ffx.CallTweak(ctx, twk);
      r.Ok? <==> ctx.txtmin <= |X| <= ctx.txtmax && |t| == TweakLen && IsNumeral(X, ctx.radix)
    ensures var t := Ffx.CallTweak(ctx, twk);
      Ffx.CheckCall(ctx, |X|, t).Some? ==> r == Err(Ffx.CheckCall(ctx, |X|, t).value)
    ensures Ffx.CheckCall(ctx, |X|, Ffx.CallTweak(ctx, twk)) == None && !IsNumeral(X, ctx.radix) ==>
              r == Err(NumberFormat)
    ensures r.Err? ==> r.error in {TextLength, TweakLength, NumberFormat}
    ensures r.Ok? ==> |r.value| == |X| && IsNumeral(r.value, ctx.radix)
  {
    var t := Ffx.CallTweak(ctx, twk);
    var chk := Ffx.CheckCall(ctx, |X|, t);
    if chk.Some? then Err(chk.value)
    else if !IsNumeral(X, ctx.radix) then Err(NumberFormat)
    else
      var n, F := |X|, Rf(Setup(aes, ctx.key, ctx.radix, t));
      HalfUndoable(ctx.radix);
      Ok(Halves.Run(ctx.radix, Halving(n), Rounds, Half(ctx.radix), Ys(F), enc, X))
  }

  function Encrypt(aes: Aes, ctx: Ffx.Context, X: string, twk: Option<seq<byte>>): (r: Result<string>)
    requires Usable(ctx)
    ensures r.Ok? <==> Ffx.CheckCall(ctx, |X|, Ffx.CallTweak(ctx, twk)) == None && IsNumeral(X, ctx.radix)
    ensures r.Ok? ==> |r.value| == |X| && IsNumeral(r.value, ctx.radix)
  {
    Cipher(aes, ctx, X, twk, true)
  }

  function Decrypt(aes: Aes, ctx: Ffx.Context, X: string, twk: Option<seq<byte>>): (r: Result<string>)
    requires Usable(ctx)
    ensures r.Ok? <==> Ffx.CheckCall(ctx, |X|, Ffx.CallTweak(ctx, twk)) == None && IsNumeral(X, ctx.radix)
    ensures r.Ok? ==> |r.value| == |X| && IsNumeral(r.value, ctx.radix)
  {
    Cipher(aes, ctx, X, twk, false)
  }

  /** On a text that passes the checks, cipher in one direction succeeds,
      and cipher in the other direction gives back the text. */
  lemma CipherInverse(aes: Aes, ctx: Ffx.Context, X: string, twk: Option<seq<byte>>, enc: bool)
    requires Usable(ctx)
    requires Ffx.CheckCall(ctx, |X|, Ffx.CallTweak(ctx, twk)) == None && IsNumeral(X, ctx.radix)
    ensures var r := Cipher(aes, ctx, X, twk, enc);
      r.Ok? && Cipher(aes, ctx, r.value, twk, !enc) == Ok(X)
  {
    var t := Ffx.CallTweak(ctx, twk);
    var n, F := |X|, Rf(Setup(aes, ctx.key, ctx.radix, t));
    HalfUndoable(ctx.radix);
    YsMirrored(F);
    Halves.RunInverse(ctx.radix, Halving(n), Rounds, Half(ctx.radix), Ys(F), enc, X);
  }

  /** Decryption undoes encryption under the same key and tweak, for
      every text encryption accepts. */
  lemma DecryptEncrypt(aes: Aes, ctx: Ffx.Context, X: string, twk: Option<seq<byte>>)
    requires Usable(ctx)
    requires Ffx.CheckCall(ctx, |X|, Ffx.CallTweak(ctx, twk)) == None && IsNumeral(X, ctx.radix)
    ensures var c := Encrypt(aes, ctx, X, twk);
      c.Ok? && Decrypt(aes, ctx, c.value, twk) == Ok(X)
  {
    CipherInverse(aes, ctx, X, twk, true);
  }

  /** Encryption undoes decryption under the same key and tweak, for
      every text decryption accepts. */
  lemma EncryptDecrypt(aes: Aes, ctx: Ffx.Context, X: string, twk: Option<seq<byte>>)
    requires Usable(ctx)
    requires Ffx.CheckCall(ctx, |X|, Ffx.CallTweak(ctx, twk)) == None && IsNumeral(X, ctx.radix)
    ensures var p := Decrypt(aes, ctx, X, twk);
      p.Ok? && Encrypt(aes, ctx, p.value, twk) == Ok(X)
  {
    CipherInverse(aes, ctx, X, twk, false);
  }
}

=== FILE: ffx.dfy ===
/** The FFX context shared by FF1 and FF3-1: a validated key, radix,
    default tweak and the text and tweak length bounds. */
module Ffx {
  import opened Wrappers
  import opened Arith
  import opened Bytes

  datatype Context = Context(
    key: seq<byte>,
    radix: nat,
    txtmin: nat,
    txtmax: nat,
    twkmin: int,
    twkmax: int,   // 0 means no upper bound
    twk: seq<byte>) // the default tweak

  /** Both algorithms require radix^txtmin >= 1,000,000. */
  const MinDomain: nat := 1000000

  /** The least text length n with radix^n >= 1,000,000, the integer
      value of ceil(6 / log10(radix)). */
  function TxtMin(radix: nat): (n: nat)
    requires radix >= 2
    ensures MinDomain <= Pow(radix, n)
    ensures n > 0 ==> Pow(radix, n - 1) < MinDomain
  {
    CeilLog(radix, MinDomain)
  }

  /** For the radices the library accepts, txtmin lies between 4 and 20. */
  lemma TxtMinRange(radix: nat)
    requires 2 <= radix <= 36
    ensures 4 <= TxtMin(radix) <= 20
  {
    var n := TxtMin(radix);
    Pow2To20();
    PowLeBase(2, radix, 20);
    CeilLogLeast(radix, MinDomain, 20);
    PowLeBase(radix, 36, 3);
    assert Pow(36, 3) == 46656;
    if n < 4 {
      PowMonotone(radix, n, 3);
    }
  }

  lemma Pow2To20()
    ensures Pow(2, 19) == 524288 && Pow(2, 20) == 1048576
  {
    assert Pow(2, 10) == 1024 && Pow(2, 9) == 512;
    PowAdd(2, 10, 9);
    PowAdd(2, 10, 10);
  }

  lemma TxtMinExamples()
    ensures TxtMin(10) == 6 && TxtMin(2) == 20 && TxtMin(36) == 4
  {
    assert Pow(10, 6) == 1000000 && Pow(10, 5) == 100000;
    Pow2To20();
    assert Pow(36, 4) == 1679616 && Pow(36, 3) == 46656;
    TxtMinUnique(10, 6);
    TxtMinUnique(2, 20);
    TxtMinUnique(36, 4);
  }

  lemma TxtMinUnique(radix: nat, n: nat)
    requires radix >= 2 && n >= 1
    requires MinDomain <= Pow(radix, n) && Pow(radix, n - 1) < MinDomain
    ensures TxtMin(radix) == n
  {
    var t := TxtMin(radix);
    if t < n {
      PowMonotone(radix, t, n - 1);
    } else if t > n {
      PowMonotone(radix, n, t - 1);
    }
  }

  predicate KeySizeOk(key: seq<byte>)
  {
    |key| == 16 || |key| == 24 || |key| == 32
  }

  /** A tweak length within [twkmin, twkmax], twkmax = 0 meaning no upper
      bound. */
  predicate TweakFits(len: nat, twkmin: int, twkmax: int)
  {
    twkmin <= len && (twkmax > 0 ==> len <= twkmax)
  }

  /** What a cipher call relies on: a supported radix, and a minimum text
      length of at least two, so that both halves of a text are non-empty. */
  predicate Usable(ctx: Context)
  {
    2 <= ctx.radix <= 36 && 2 <= ctx.txtmin <= ctx.txtmax
  }

  /** What a constructed context satisfies (which includes Usable). */
  predicate Valid(ctx: Context)
  {
    && Usable(ctx)
    && KeySizeOk(ctx.key)
    && ctx.txtmin == TxtMin(ctx.radix)
    && ctx.twkmin <= ctx.twkmax
    && TweakFits(|ctx.twk|, ctx.twkmin, ctx.twkmax)
  }

  /** The FFX constructor: checks, in order, the key size, the radix, the
      minimum text length against txtmax, the presence of the default
      tweak and the tweak bounds; keeps a copy of the tweak. */
  function New(key: seq<byte>, twk: Option<seq<byte>>, txtmax: int,
               twkmin: int, twkmax: int, radix: int): (r: Result<Context>)
    ensures !KeySizeOk(key) ==> r == Err(KeySize)
    ensures KeySizeOk(key) && !(2 <= radix <= 36) ==> r == Err(Radix)
    ensures KeySizeOk(key) && 2 <= radix <= 36 && !(2 <= TxtMin(radix) <= txtmax) ==>
              r == Err(TextMinRange)
    ensures KeySizeOk(key) && 2 <= radix <= 36 && 2 <= TxtMin(radix) <= txtmax && twk.None? ==>
              r == Err(NullTweak)
    ensures KeySizeOk(key) && 2 <= radix <= 36 && 2 <= TxtMin(radix) <= txtmax && twk.Some?
              && !(twkmin <= twkmax && TweakFits(|twk.value|, twkmin, twkmax)) ==>
              r == Err(TweakLength)
    ensures r.Ok? <==>
              && KeySizeOk(key) && 2 <= radix <= 36 && 2 <= TxtMin(radix) <= txtmax
              && twk.Some? && twkmin <= twkmax && TweakFits(|twk.value|, twkmin, twkmax)
    ensures r.Err? ==> r.error in {KeySize, Radix, TextMinRange, NullTweak, TweakLength}
    ensures r.Ok? ==> Valid(r.value)
    ensures r.Ok? ==> r.value.key == key && r.value.radix == radix && r.value.txtmax == txtmax
    ensures r.Ok? ==> r.value.twkmin == twkmin && r.value.twkmax == twkmax && r.value.twk == twk.value
  {
    if !KeySizeOk(key) then Err(KeySize)
    else if radix < 2 || radix > 36 then Err(Radix)
    else
      var txtmin := TxtMin(radix);
      if txtmin < 2 || txtmin > txtmax then Err(TextMinRange)
      else if twk.None? then Err(NullTweak)
      else if twkmin > twkmax || |twk.value| < twkmin
              || (twkmax > 0 && |twk.value| > twkmax) then Err(TweakLength)
      else Ok(Context(key, radix, txtmin, txtmax, twkmin, twkmax, twk.value))
  }

  /** The older package's constructor. It has no null-tweak test: it checks
      twkmin <= twkmax before it reads the tweak's length, so a missing tweak
      fails with TweakLength when twkmin > twkmax, and at the length read
      (NullTweak here) otherwise. */
  function NewOlder(key: seq<byte>, twk: Option<seq<byte>>, txtmax: int,
                    twkmin: int, twkmax: int, radix: int): (r: Result<Context>)
    ensures KeySizeOk(key) && 2 <= radix <= 36 && 2 <= TxtMin(radix) <= txtmax && twk.None? && twkmin > twkmax ==>
              r == Err(TweakLength)
    ensures !(twk.None? && twkmin > twkmax) ==> r == New(key, twk, txtmax, twkmin, twkmax, radix)
    ensures r.Ok? <==> New(key, twk, txtmax, twkmin, twkmax, radix).Ok?
  {
    if !KeySizeOk(key) then Err(KeySize)
    else if radix < 2 || radix > 36 then Err(Radix)
    else
      var txtmin := TxtMin(radix);
      if txtmin < 2 || txtmin > txtmax then Err(TextMinRange)
      else if twkmin > twkmax then Err(TweakLength)
      else if twk.None? then Err(NullTweak)
      else if |twk.value| < twkmin || (twkmax > 0 && |twk.value| > twkmax) then Err(TweakLength)
      else Ok(Context(key, radix, txtmin, txtmax, twkmin, twkmax, twk.value))
  }

  /** The two orders of checks disagree: with no tweak and twkmin > twkmax,
      the current constructor reports the missing tweak and the older one
      the tweak bounds. */
  lemma NullTweakOrder(key: seq<byte>)
    requires KeySizeOk(key)
    ensures New(key, None, 0x1_0000_0000, 1, 0, 10) == Err(NullTweak)
    ensures NewOlder(key, None, 0x1_0000_0000, 1, 0, 10) == Err(TweakLength)
  {
  }

  /** The tweak a cipher call uses: the given one, or the default when the
      caller passes none. */
  function CallTweak(ctx: Context, twk: Option<seq<byte>>): seq<byte>
  {
    twk.GetOr(ctx.twk)
  }

  /** The per-call checks: text length in [txtmin, txtmax], then the tweak
      length within its bounds. */
  function CheckCall(ctx: Context, n: nat, twk: seq<byte>): (r: Option<Error>)
    ensures r == None <==> ctx.txtmin <= n <= ctx.txtmax && TweakFits(|twk|, ctx.twkmin, ctx.twkmax)
    ensures r == Some(TextLength) <==> n < ctx.txtmin || n > ctx.txtmax
    ensures r.Some? ==> r.value in {TextLength, TweakLength}
  {
    if n < ctx.txtmin || n > ctx.txtmax then Some(TextLength)
    else if |twk| < ctx.twkmin || (ctx.twkmax > 0 && |twk| > ctx.twkmax) then Some(TweakLength)
    else None
  }
}

=== FILE: halves.dfy ===
/** The numeral side of the Feistel networks of FF1 and FF3-1: the text is
    cut into a first half of u characters and a second of v, the rounds
    replace the halves in turn so that each keeps its length, and the
    result is the two halves joined again.  FF1 makes the first half the
    shorter one, FF3-1 the longer. */
module Halves {
  import opened Numeral
  import Feistel

  /** The lengths of the first and the second half. */
  datatype Cut = Cut(u: nat, v: nat)

  /** m: the length of the half that round i replaces, u on even rounds
      when encrypting and on odd rounds when decrypting, v otherwise. */
  function M(c: Cut, enc: bool, i: nat): (m: nat)
    ensures m == c.u || m == c.v
  {
    if (i + (if enc then 1 else 0)) % 2 == 1 then c.u else c.v
  }

  /** The lengths alternate: every second round replaces a half of the
      same length, two consecutive rounds replace one half each, and a
      round of one direction has the length of the next round of the
      other. */
  lemma MAlternates(c: Cut, enc: bool, i: nat)
    ensures M(c, enc, i + 2) == M(c, enc, i)
    ensures M(c, enc, i) + M(c, enc, i + 1) == c.u + c.v
    ensures M(c, !enc, i) == M(c, enc, i + 1)
  {
  }

  /** Before round i both halves are numerals, of the lengths that round i
      and round i + 1 replace. */
  function Shape(radix: nat, c: Cut): Feistel.Inv
  {
    (enc: bool, i: nat, st: Feistel.Pair) =>
      && IsNumeral(st.0, radix) && IsNumeral(st.1, radix)
      && |st.0| == M(c, enc, i) && |st.1| == M(c, enc, i + 1)
  }

  /** The starting state (A, B): (X[..u], X[u..]) when encrypting and
      (X[u..], X[..u]) when decrypting. */
  function Split(radix: nat, c: Cut, enc: bool, X: string): (st: Feistel.Pair)
    requires |X| == c.u + c.v && IsNumeral(X, radix)
    ensures Shape(radix, c)(enc, 0, st)
    ensures st == if enc then (X[..c.u], X[c.u..]) else (X[c.u..], X[..c.u])
    ensures Join(enc, st) == X
  {
    NumeralSplit(X, c.u, radix);
    assert M(c, enc, 0) == (if enc then c.u else c.v);
    assert M(c, enc, 1) == (if enc then c.v else c.u);
    assert X[..c.u] + X[c.u..] == X;
    if enc then (X[..c.u], X[c.u..]) else (X[c.u..], X[..c.u])
  }

  /** The output: A || B when encrypting, B || A when decrypting. */
  function Join(enc: bool, st: Feistel.Pair): string
  {
    if enc then st.0 + st.1 else st.1 + st.0
  }

  /** Joined numerals are a numeral of the summed length. */
  lemma JoinNumeral(radix: nat, enc: bool, st: Feistel.Pair)
    requires IsNumeral(st.0, radix) && IsNumeral(st.1, radix)
    ensures |Join(enc, st)| == |st.0| + |st.1| && IsNumeral(Join(enc, st), radix)
  {
    NumeralJoin(st.0, st.1, radix);
    NumeralJoin(st.1, st.0, radix);
  }

  /** Halves of the shape of any round join into a numeral of u + v
      characters. */
  lemma JoinShape(radix: nat, c: Cut, N: nat, enc: bool, r: Feistel.Pair)
    requires Shape(radix, c)(enc, N, r)
    ensures |Join(enc, r)| == c.u + c.v && IsNumeral(Join(enc, r), radix)
  {
    MAlternates(c, enc, N);
    JoinNumeral(radix, enc, r);
  }

  /** The new half of a round from its length m, the old half A, y and
      the direction (true when encrypting). */
  type HalfFn = (nat, string, int, bool) -> string

  /** y of round i in a direction, computed from the half B. */
  type YFn = (bool, nat, string) -> int

  /** H keeps an m-digit numeral an m-digit numeral. */
  predicate Fits(radix: nat, H: HalfFn, m: nat, A: string, y: int, enc: bool)
  {
    |H(m, A, y, enc)| == m && IsNumeral(H(m, A, y, enc), radix)
  }

  /** H and then the update of the other direction, with the same y. */
  function Back(H: HalfFn, m: nat, A: string, y: int, enc: bool): string
  {
    H(m, H(m, A, y, enc), y, !enc)
  }

  /** What the rounds need of a half update: an m-digit numeral becomes an
      m-digit numeral, and the update of the other direction with the same
      y gives it back. */
  ghost predicate Undoable(radix: nat, H: HalfFn)
  {
    forall m: nat, A: string, y: int, enc: bool ::
      m >= 1 && |A| == m && IsNumeral(A, radix) ==>
        Fits(radix, H, m, A, y, enc) && Back(H, m, A, y, enc) == A
  }

  /** The round number a cipher feeds into round i's data: i when
      encrypting, N - 1 - i when decrypting, so that partner rounds agree. */
  function RoundNumber(N: nat, enc: bool, i: nat): (rb: nat)
    requires i < N
    ensures rb < N
  {
    if enc then i else N - 1 - i
  }

  /** y of the partner of round i: round N - 1 - i of the other direction. */
  function Partner(Y: YFn, N: nat, enc: bool, i: nat, B: string): int
    requires i < N
  {
    Y(!enc, N - 1 - i, B)
  }

  /** Partner rounds compute the same y from the same half. */
  ghost predicate Mirrored(Y: YFn, N: nat)
  {
    forall enc: bool, i: nat, B: string {:trigger Partner(Y, N, enc, i, B)} ::
      i < N ==> Partner(Y, N, enc, i, B) == Y(enc, i, B)
  }

  /** Round i: (A, B) becomes (B, C), C the new half, as long as A, from A
      and the y of round i on B. */
  function Round(c: Cut, H: HalfFn, Y: YFn, enc: bool, i: nat, st: Feistel.Pair): Feistel.Pair
  {
    (st.1, H(M(c, enc, i), st.0, Y(enc, i, st.1), enc))
  }

  /** The rounds as a Feistel step. */
  function Network(c: Cut, H: HalfFn, Y: YFn): Feistel.Step
  {
    (enc: bool, i: nat, st: Feistel.Pair) => Round(c, H, Y, enc, i, st)
  }

  /** A round keeps the shape. */
  lemma RoundKeepsShape(radix: nat, c: Cut, H: HalfFn, Y: YFn, enc: bool, i: nat, st: Feistel.Pair)
    requires c.u >= 1 && c.v >= 1 && Undoable(radix, H) && Shape(radix, c)(enc, i, st)
    ensures Shape(radix, c)(enc, i + 1, Round(c, H, Y, enc, i, st))
  {
    assert Fits(radix, H, M(c, enc, i), st.0, Y(enc, i, st.1), enc);
    MAlternates(c, enc, i);
  }

  /** Every round keeps the shape. */
  lemma KeepsShape(radix: nat, c: Cut, N: nat, H: HalfFn, Y: YFn, enc: bool)
    requires c.u >= 1 && c.v >= 1 && Undoable(radix, H)
    ensures Feistel.Preserves(Network(c, H, Y), Shape(radix, c), enc, N)
  {
    forall i: nat, st: Feistel.Pair | i < N && Shape(radix, c)(enc, i, st)
      ensures Shape(radix, c)(enc, i + 1, Network(c, H, Y)(enc, i, st))
    {
      RoundKeepsShape(radix, c, H, Y, enc, i, st);
    }
  }

  /** With N even, round N - 1 - i of the other direction replaces a half
      of the length round i replaces. */
  lemma MMirror(c: Cut, N: nat, enc: bool, i: nat)
    requires N % 2 == 0 && i < N
    ensures M(c, !enc, N - 1 - i) == M(c, enc, i)
  {
  }

  /** A round undone: its partner round, applied to its swapped output,
      gives back the swapped input. */
  lemma RoundInverse(radix: nat, c: Cut, N: nat, H: HalfFn, Y: YFn, enc: bool, i: nat, st: Feistel.Pair)
    requires N % 2 == 0 && i < N && Undoable(radix, H) && Mirrored(Y, N)
    requires M(c, enc, i) >= 1 && |st.0| == M(c, enc, i) && IsNumeral(st.0, radix)
    ensures Round(c, H, Y, !enc, N - 1 - i, Feistel.Swap(Round(c, H, Y, enc, i, st))) == Feistel.Swap(st)
  {
    MMirror(c, N, enc, i);
    assert Partner(Y, N, enc, i, st.1) == Y(enc, i, st.1);
    assert Back(H, M(c, enc, i), st.0, Y(enc, i, st.1), enc) == st.0;
  }

  /** The same, for the rounds as a Feistel step on a state of the shape
      of round i. */
  lemma StepInverse(radix: nat, c: Cut, N: nat, H: HalfFn, Y: YFn, enc: bool, i: nat, st: Feistel.Pair)
    requires N % 2 == 0 && c.u >= 1 && c.v >= 1 && Undoable(radix, H) && Mirrored(Y, N)
    requires i < N && Shape(radix, c)(enc, i, st)
    ensures Network(c, H, Y)(!enc, N - 1 - i, Feistel.Swap(Network(c, H, Y)(enc, i, st)))
         == Feistel.Swap(st)
  {
    RoundInverse(radix, c, N, H, Y, enc, i, st);
  }

  /** Every round is undone by its partner round. */
  lemma Undone(radix: nat, c: Cut, N: nat, H: HalfFn, Y: YFn, enc: bool)
    requires N % 2 == 0 && c.u >= 1 && c.v >= 1 && Undoable(radix, H) && Mirrored(Y, N)
    ensures Feistel.Undoes(Network(c, H, Y), Shape(radix, c), enc, N)
  {
    forall i: nat, st: Feistel.Pair | i < N && Shape(radix, c)(enc, i, st) {
      StepInverse(radix, c, N, H, Y, enc, i, st);
    }
  }

  /** The split, N rounds and the join. */
  function Run(radix: nat, c: Cut, N: nat, H: HalfFn, Y: YFn, enc: bool, X: string): (Z: string)
    requires |X| == c.u + c.v && IsNumeral(X, radix)
    requires c.u >= 1 && c.v >= 1 && Undoable(radix, H)
    ensures |Z| == |X| && IsNumeral(Z, radix)
  {
    var G := Network(c, H, Y);
    var st := Split(radix, c, enc, X);
    var r := Feistel.Iterate(G, enc, N, st);
    KeepsShape(radix, c, N, H, Y, enc);
    Feistel.IterateKeeps(G, Shape(radix, c), enc, N, N, st);
    JoinShape(radix, c, N, enc, r);
    Join(enc, r)
  }

  /** Joining the state after an even number of rounds and splitting it
      for the other direction gives the swapped state. */
  lemma SplitJoin(radix: nat, c: Cut, N: nat, enc: bool, r: Feistel.Pair)
    requires N % 2 == 0 && Shape(radix, c)(enc, N, r)
    ensures |Join(enc, r)| == c.u + c.v && IsNumeral(Join(enc, r), radix)
    ensures Split(radix, c, !enc, Join(enc, r)) == Feistel.Swap(r)
  {
    var Y := Join(enc, r);
    assert M(c, enc, N) == M(c, enc, 0) == (if enc then c.u else c.v) by {
      MEven(c, enc, N);
    }
    JoinNumeral(radix, enc, r);
    if enc {
      assert Y[..c.u] == r.0 && Y[c.u..] == r.1;
    } else {
      assert Y[..c.u] == r.1 && Y[c.u..] == r.0;
    }
  }

  /** After an even number of rounds the lengths are those of round 0. */
  lemma {:induction false} MEven(c: Cut, enc: bool, N: nat)
    requires N % 2 == 0
    ensures M(c, enc, N) == M(c, enc, 0)
    decreases N
  {
    if N >= 2 {
      MEven(c, enc, N - 2);
      MAlternates(c, enc, N - 2);
    }
  }

  /** The network in one direction and then the other gives the text
      back, for an even number of rounds, an undoable update and partner
      rounds that compute the same y. */
  lemma RunInverse(radix: nat, c: Cut, N: nat, H: HalfFn, Y: YFn, enc: bool, X: string)
    requires |X| == c.u + c.v && IsNumeral(X, radix) && N % 2 == 0
    requires c.u >= 1 && c.v >= 1 && Undoable(radix, H) && Mirrored(Y, N)
    ensures Run(radix, c, N, H, Y, !enc, Run(radix, c, N, H, Y, enc, X)) == X
  {
    var G := Network(c, H, Y);
    var st := Split(radix, c, enc, X);
    var r := Feistel.Iterate(G, enc, N, st);
    KeepsShape(radix, c, N, H, Y, enc);
    KeepsShape(radix, c, N, H, Y, !enc);
    Undone(radix, c, N, H, Y, enc);
    Feistel.IterateKeeps(G, Shape(radix, c), enc, N, N, st);
    Feistel.RoundTrip(G, Shape(radix, c), enc, N, st);
    SplitJoin(radix, c, N, enc, r);
  }
}

=== FILE: numeral.dfy ===
/** The numeral codec: strings of digits `0-9a-z` in a radix from 2 to 36
    and their values, as `new BigInteger(s, radix)` reads them and
    `BigInteger.toString(radix)` with the left padding of `FFX.str` writes
    them. */
module Numeral {
  import opened Arith
  import opened Wrappers

  /** The character `BigInteger.toString` emits for digit d. */
  function Digit(d: nat): char
    requires d < 36
  {
    if d < 10 then (48 + d) as char else (97 + d - 10) as char
  }

  predicate IsDigitChar(ch: char)
  {
    '0' <= ch <= '9' || 'a' <= ch <= 'z'
  }

  /** The value of a digit character; the inverse of Digit. */
  function DigitValue(ch: char): (d: nat)
    requires IsDigitChar(ch)
    ensures d < 36 && Digit(d) == ch
  {
    if ch <= '9' then ch as int - 48 else ch as int - 97 + 10
  }

  lemma DigitRoundTrip(d: nat)
    requires d < 36
    ensures IsDigitChar(Digit(d)) && DigitValue(Digit(d)) == d
  {
  }

  predicate IsDigit(ch: char, radix: nat)
  {
    IsDigitChar(ch) && DigitValue(ch) < radix
  }

  /** Every character of s is a digit of the radix. */
  predicate IsNumeral(s: string, radix: nat)
  {
    forall i :: 0 <= i < |s| ==> IsDigit(s[i], radix)
  }

  /** Both halves of a numeral are numerals. */
  lemma NumeralSplit(s: string, u: nat, radix: nat)
    requires IsNumeral(s, radix) && u <= |s|
    ensures IsNumeral(s[..u], radix) && IsNumeral(s[u..], radix)
  {
    assert forall i :: 0 <= i < |s| - u ==> s[u..][i] == s[u + i];
  }

  /** Two numerals joined are a numeral. */
  lemma NumeralJoin(a: string, b: string, radix: nat)
    requires IsNumeral(a, radix) && IsNumeral(b, radix)
    ensures IsNumeral(a + b, radix)
  {
    assert forall i :: |a| <= i < |a + b| ==> (a + b)[i] == b[i - |a|];
  }

  /** NUM_radix(s): the value of s read most significant digit first. */
  function Num(s: string, radix: nat): (x: nat)
    requires IsNumeral(s, radix)
    ensures x < Pow(radix, |s|)
    decreases |s|
  {
    if |s| == 0 then 0
    else
      var hi := Num(s[..|s| - 1], radix);
      var d := DigitValue(s[|s| - 1]);
      AppendDigitBound(hi, d, radix, Pow(radix, |s| - 1));
      hi * radix + d
  }

  lemma AppendDigitBound(hi: nat, d: nat, radix: nat, p: nat)
    requires hi < p && d < radix
    ensures 0 <= hi * radix + d < radix * p
  {
    MulAtLeast(p - 1, radix, hi, radix);
    assert (p - 1) * radix == p * radix - radix;
  }

  /** Leading '0' characters do not change the value. */
  lemma {:induction false} NumLeadingZeros(k: nat, s: string, radix: nat)
    requires radix >= 2 && IsNumeral(s, radix)
    ensures IsNumeral(Pad(k) + s, radix)
    ensures Num(Pad(k) + s, radix) == Num(s, radix)
    decreases |s|
  {
    var t := Pad(k) + s;
    assert IsNumeral(t, radix) by {
      forall i | 0 <= i < |t|
        ensures IsDigit(t[i], radix)
      {
        if i >= k {
          assert t[i] == s[i - k];
        }
      }
    }
    if |s| == 0 {
      assert t == Pad(k);
      NumOfPad(k, radix);
    } else {
      assert t[..|t| - 1] == Pad(k) + s[..|s| - 1];
      NumLeadingZeros(k, s[..|s| - 1], radix);
    }
  }

  lemma {:induction false} NumOfPad(k: nat, radix: nat)
    requires radix >= 2
    ensures IsNumeral(Pad(k), radix) && Num(Pad(k), radix) == 0
    decreases k
  {
    if k > 0 {
      assert Pad(k)[..k - 1] == Pad(k - 1);
      NumOfPad(k - 1, radix);
    }
  }

  /** k copies of '0'. */
  function Pad(k: nat): (z: string)
    ensures |z| == k && forall i :: 0 <= i < k ==> z[i] == '0'
  {
    seq(k, _ => '0')
  }

  /** Two numerals of equal length and equal value are the same string. */
  lemma {:induction false} NumInjective(s: string, t: string, radix: nat)
    requires radix >= 2 && IsNumeral(s, radix) && IsNumeral(t, radix)
    requires |s| == |t| && Num(s, radix) == Num(t, radix)
    ensures s == t
    decreases |s|
  {
    var n := |s|;
    if n > 0 {
      var ds, dt := DigitValue(s[n - 1]), DigitValue(t[n - 1]);
      var hs, ht := Num(s[..n - 1], radix), Num(t[..n - 1], radix);
      DivModUnique(Num(s, radix), radix, hs, ds);
      DivModUnique(Num(t, radix), radix, ht, dt);
      NumInjective(s[..n - 1], t[..n - 1], radix);
      assert s == s[..n - 1] + [s[n - 1]];
      assert t == t[..n - 1] + [t[n - 1]];
    }
  }

  /** `BigInteger.valueOf(c).toString(radix)` for c >= 0: the digits of c
      without leading zeros ("0" for zero). */
  function ToRadix(c: nat, radix: nat): (s: string)
    requires 2 <= radix <= 36
    ensures |s| >= 1
    decreases c
  {
    if c < radix then [Digit(c)]
    else ToRadix(c / radix, radix) + [Digit(c % radix)]
  }

  /** The digits of c read back give c, and there is no leading zero: a
      numeral of more than one digit is at least radix^(length - 1). */
  lemma {:induction false} ToRadixSpec(c: nat, radix: nat)
    requires 2 <= radix <= 36
    ensures var s := ToRadix(c, radix);
      IsNumeral(s, radix) && Num(s, radix) == c && (|s| > 1 ==> Pow(radix, |s| - 1) <= c)
    decreases c
  {
    var s := ToRadix(c, radix);
    if c < radix {
      DigitRoundTrip(c);
      assert s[..0] == [];
    } else {
      var hi := ToRadix(c / radix, radix);
      DivDecreases(c, radix);
      ToRadixSpec(c / radix, radix);
      DigitRoundTrip(c % radix);
      ToRadixStep(c, radix, hi, s);
    }
  }

  lemma ToRadixStep(c: nat, radix: nat, hi: string, s: string)
    requires 2 <= radix <= 36 && c >= radix
    requires |hi| >= 1 && IsNumeral(hi, radix) && Num(hi, radix) == c / radix
    requires |hi| > 1 ==> Pow(radix, |hi| - 1) <= c / radix
    requires s == hi + [Digit(c % radix)]
    requires IsDigitChar(Digit(c % radix)) && DigitValue(Digit(c % radix)) == c % radix
    ensures IsNumeral(s, radix) && Num(s, radix) == c
    ensures Pow(radix, |s| - 1) <= c
  {
    AppendDigit(hi, Digit(c % radix), radix);
    var q, d := c / radix, c % radix;
    assert Num(s, radix) == q * radix + d;
    DivMod(c, radix);
    LeadingPower(c, radix, |hi|);
  }

  /** Appending a digit keeps a numeral and scales its value by the radix. */
  lemma AppendDigit(hi: string, ch: char, radix: nat)
    requires IsNumeral(hi, radix) && IsDigit(ch, radix)
    ensures IsNumeral(hi + [ch], radix)
    ensures Num(hi + [ch], radix) == Num(hi, radix) * radix + DigitValue(ch)
  {
    var s := hi + [ch];
    assert s[..|s| - 1] == hi;
    assert IsNumeral(s, radix) by {
      forall i | 0 <= i < |s|
        ensures IsDigit(s[i], radix)
      {
        if i < |hi| {
          assert s[i] == hi[i];
        }
      }
    }
  }

  lemma DivMod(c: nat, m: nat)
    requires m > 0
    ensures c == (c / m) * m + c % m
  {
  }

  lemma LeadingPower(c: nat, radix: nat, k: nat)
    requires 2 <= radix && c >= radix && k >= 1
    requires k > 1 ==> Pow(radix, k - 1) <= c / radix
    ensures Pow(radix, k) <= c
  {
    DivBounds(c, radix, c / radix);
    assert Pow(radix, k) == radix * Pow(radix, k - 1);
    if k > 1 {
      MulAtLeast(radix, c / radix, radix, Pow(radix, k - 1));
    }
  }

  /** Whether c has at most m digits: the minimal form fits iff c < radix^m
      (and m >= 1, as zero still takes one digit). */
  lemma ToRadixFits(c: nat, radix: nat, m: nat)
    requires 2 <= radix <= 36
    ensures |ToRadix(c, radix)| <= m <==> 1 <= m && c < Pow(radix, m)
  {
    var l := |ToRadix(c, radix)|;
    ToRadixSpec(c, radix);
    if l <= m {
      PowMonotone(radix, l, m);
    }
    if 1 <= m && c < Pow(radix, m) && l > m {
      PowMonotone(radix, m, l - 1);
    }
  }

  /** `FFX.str(m, r, c)`: c in radix r, left-padded with '0' to exactly m
      characters; fails when the digits of c do not fit in m. */
  function Str(m: nat, radix: nat, c: nat): (r: Result<string>)
    requires 2 <= radix <= 36
    ensures r.Ok? <==> 1 <= m && c < Pow(radix, m)
    ensures r.Err? ==> r.error == LengthExceeded
    ensures r.Ok? ==> |r.value| == m && IsNumeral(r.value, radix) && Num(r.value, radix) == c
  {
    var s := ToRadix(c, radix);
    ToRadixSpec(c, radix);
    ToRadixFits(c, radix, m);
    if |s| > m then Err(LengthExceeded)
    else
      NumLeadingZeros(m - |s|, s, radix);
      Ok(Pad(m - |s|) + s)
  }

  /** STR is the inverse of NUM at the numeral's own length. */
  lemma StrOfNum(s: string, radix: nat)
    requires 2 <= radix <= 36 && IsNumeral(s, radix) && |s| >= 1
    ensures Str(|s|, radix, Num(s, radix)) == Ok(s)
  {
    var r := Str(|s|, radix, Num(s, radix));
    NumInjective(r.value, s, radix);
  }

  /** `str(5, 10, 12345)` is "12345", `str(6, 10, 12345)` is "012345" and
      `str(4, 10, 12345)` fails. */
  lemma StrExamples()
    ensures Str(5, 10, 12345) == Ok("12345")
    ensures Str(6, 10, 12345) == Ok("012345")
    ensures Str(4, 10, 12345) == Err(LengthExceeded)
  {
    assert ToRadix(12345, 10) == "12345";
    assert Pad(0) + "12345" == "12345";
    assert Pad(1) + "12345" == "012345";
  }

  /** The value of a Feistel round's new half: a + y (encrypting) or
      a - y (decrypting) reduced modulo radix^m into 0 .. radix^m - 1. */
  function UpdateValue(radix: nat, m: nat, a: int, y: int, enc: bool): (c: nat)
    requires radix >= 2
    ensures c < Pow(radix, m)
  {
    var P := Pow(radix, m);
    if enc then (a + y) % P else (a - y) % P
  }

  /** Adding y to NUM(A) modulo radix^|A| and then subtracting it (or the
      other way round) gives NUM(A) back: the modular update of a Feistel
      round is undone by the opposite update with the same y. */
  lemma UpdateInverse(radix: nat, A: string, y: int, enc: bool)
    requires 2 <= radix <= 36 && IsNumeral(A, radix)
    ensures var a := Num(A, radix);
      UpdateValue(radix, |A|, UpdateValue(radix, |A|, a, y, enc), y, !enc) == a
  {
    var P := Pow(radix, |A|);
    var a := Num(A, radix);
    if enc {
      ModAddSub(a, y, P);
    } else {
      ModSubAdd(a, y, P);
    }
    ModSmall(a, P);
  }

  /** The new half of a Feistel round: the m-digit numeral of NUM(A) + y
      (encrypting) or NUM(A) - y (decrypting) modulo radix^m. */
  function Update(radix: nat, m: nat, A: string, y: int, enc: bool): (C: string)
    requires 2 <= radix <= 36 && m >= 1 && IsNumeral(A, radix)
    ensures |C| == m && IsNumeral(C, radix)
    ensures Num(C, radix) == UpdateValue(radix, m, Num(A, radix), y, enc)
  {
    Str(m, radix, UpdateValue(radix, m, Num(A, radix), y, enc)).value
  }

  /** The update of the other direction, with the same y, gives back an
      m-digit A. */
  lemma UpdateUndone(radix: nat, m: nat, A: string, y: int, enc: bool)
    requires 2 <= radix <= 36 && IsNumeral(A, radix) && |A| == m >= 1
    ensures Update(radix, m, Update(radix, m, A, y, enc), y, !enc) == A
  {
    var C := Update(radix, m, A, y, enc);
    var D := Update(radix, m, C, y, !enc);
    assert Num(D, radix) == UpdateValue(radix, m, Num(C, radix), y, !enc);
    UpdateInverse(radix, A, y, enc);
    NumInjective(D, A, radix);
  }
}

=== FILE: wrappers.dfy ===
/** Optional values (a Java reference that may be null) and the error
    outcomes of the FPE library, one constructor per exception it raises. */
module Wrappers {

  datatype Option<+T> = None | Some(value: T) {
    function GetOr(default: T): T {
      match this
      case Some(v) => v
      case None => default
    }
  }

  /** The exceptions thrown by the FFX context, the ciphers and the helpers. */
  datatype Error =
    | KeySize          // "key size error"
    | Radix            // "invalid radix"
    | TextMinRange     // "minimum text length out of range"
    | NullTweak        // the default tweak is null
    | TweakLength      // "invalid tweak length" / "illegal tweak length"
    | TextLength       // "invalid input length" / "illegal input length"
    | SourceLength     // "invalid source length" (prf / ciph)
    | LengthExceeded   // "string exceeds desired length" (str)
    | NumberFormat     // a character that is not a digit of the radix

  datatype Result<+T> = Ok(value: T) | Err(error: Error)
}
